=== FILE: README.md ===
# Area tree: a Dafny model

This project models the core of the ONS area tree, a browser script that
shows the census geography of England and Wales as an expandable tree. The
script works in four steps:

- It asks the ONS statistics service for the top-level areas of a hierarchy, or for the sub-areas of one parent area.
- It normalises the service's `item` member into a comma-separated run of small JSON object texts, one per area. These are called fragments.
- It decides for each area whether it is expandable, by comparing the area's level with the deepest level of the selected hierarchy. That depth comes from a fixed table and is memoised in page-level globals.
- In the offline demonstration it cuts the fragment text apart again at every `}, {`, restores the braces, and creates one child node per piece.

All of this lives in `js/area_utils.js`. The model follows the script's
branches, constants and edge cases. The page-level globals are one
immutable `Globals` record that every operation takes and returns.

Modules, one per concern of the script:

- `Wrappers`: `Option`.
- `Strings`: separator search, `split` with a non-empty separator, and join.
- `Hierarchy`: the globals, the page reset, and the memoised deepest-level lookup.
- `Fragments`: the fragment text builders, with a reader that parses a fragment back into its fields.
- `Extract`: the normaliser over a lone object or an array of objects.
- `Request`: the request paths and the initialise button.
- `DemoTree`: the demonstration's node-open handler.
- `Whitespace`: the whitespace stripper.
- `Fixtures`: a few areas from the stored demonstration responses, walked through the model.

## Model

| member | source | states |
|---|---|---|
| Hierarchy.ResetPage | js/area_utils.js:95-106 | resetting the page zeroes the memoised level and lowers its flag; the current hierarchy and the `levels` filter are kept |
| Hierarchy.MaxLevelTable | js/area_utils.js:434-453 | the table answers for exactly the five known hierarchy ids, and every depth it gives is between 3 and 6 |
| Hierarchy.MaxLevelTableContents | js/area_utils.js:434-453 | the depth table knows exactly the five hierarchies 2011PCONH, 2011WARDH, 2011STATH, 2011CMLADH and 2011HTWARDH, with depths 3, 5, 6, 4 and 5 |
| Hierarchy.GetMaxLevel | js/area_utils.js:429-458 | the lookup always raises the flag and returns the stored level; with the flag already up it returns the stored number and changes nothing; otherwise a known hierarchy gets its table depth and an unknown one keeps the previous number |
| Hierarchy.LookupIdempotent | js/area_utils.js:431-457 | a second lookup gives the first one's answer and globals |
| Hierarchy.LookupIgnoresLaterHierarchy | js/area_utils.js:431-457 | once the depth is memoised, changing the current hierarchy does not change the answer |
| Hierarchy.LookupAfterReset | js/area_utils.js:95-106 | after a reset the lookup gives the table depth of a known current hierarchy, and 0 for an unknown one |
| Strings.FindFrom | js/area_utils.js:713 | the result is the first occurrence of the separator at or after the start index, or none if there is none |
| Strings.Split | js/area_utils.js:713 | splitting gives at least one piece, the pieces rejoined with the separator give back the input, no piece holds the separator, and a separator-free text is one piece |
| Strings.SplitJoin | js/area_utils.js:713 | splitting a join with a separator that cannot overlap itself gives back the pieces, when no piece contains the separator |
| Fragments.JsonArea | js/area_utils.js:299-312 | every area fragment starts with `{` and ends with `}` |
| Fragments.ParseJsonArea | js/area_utils.js:299-312 | reading a fragment back gives the label, code, type abbreviation and expandability it was built from, when no field holds a double quote |
| Fragments.JsonAreaFree | js/area_utils.js:299-312 | a fragment contains the `}, {` separator only if one of its field values does |
| Fragments.JsonAreaUK | js/area_utils.js:274-288 | the root fragment starts with the area's label and code object, left without its closing brace, and for an area without children it is exactly that object |
| Fragments.JsonAreaChild | js/area_utils.js:326-338 | the child wrapper starts with the `children` member and the child's label and code object |
| Fragments.WrappersAgree | js/area_utils.js:274-338 | an opened root is the unopened root plus its open state; the child wrapper holds the unopened root text for the same area, closed as `closed` when it has children and by a bare brace otherwise |
| Extract.ManyFragments | js/area_utils.js:376-412 | an array member yields exactly one fragment per element |
| Extract.Classify | js/area_utils.js:395-402 | an element is expandable exactly when its level is below the deepest level in force; the demonstration leaves the globals alone, and live mode leaves the depth memoised with the same answer |
| Extract.AreaFragments | js/area_utils.js:361-412 | a lone object gives one fragment and leaves the globals alone; an array gives one fragment per element |
| Extract.ManyFragmentsOrdered | js/area_utils.js:376-412 | fragment i is element i's fragment. All elements are judged against one deepest level: the memoised one in live mode, 2 in the demonstration. The demonstration leaves the globals alone, and live mode leaves them as one lookup does |
| Extract.SingleIsOneExpandable | js/area_utils.js:361-372 | a lone object yields exactly one fragment, always expandable, and the globals are untouched. When no field holds a double quote, the fragment reads back as the object's label, code and type |
| Extract.SingleMatchesSingletonIff | js/area_utils.js:361-412 | a lone object and a one-element array holding it give the same text if and only if the element is judged expandable |
| Extract.ManyFragmentsRead | js/area_utils.js:376-412 | when no field of the element holds a double quote, each fragment of an array member reads back as its element's label, code and type, closed exactly when the batch rule calls it expandable |
| Extract.ExtractAreaData | js/area_utils.js:352-415 | the text returned is the member's fragments joined with `", "`, and the globals end as the fragment sequence leaves them |
| Extract.ExtractArray | js/area_utils.js:376-412 | the loop's text is the array's fragments joined with `", "`, with a separator before every fragment but the first, and the globals end as the fragment sequence leaves them |
| Request.GetAreaData | js/area_utils.js:122-152 | the drop-down's hierarchy becomes the current hierarchy; the request initialises the tree exactly when no parent code is given; the memo is untouched; a sub-area request keeps the `levels` filter |
| Request.ParseSelection | js/area_utils.js:131-134 | the hierarchy read from the drop-down value holds no colon and is a prefix of the value; a value without a colon is all hierarchy, with the dataset `undefined` |
| Request.ParseSelectionOfPair | js/area_utils.js:131-134 | a `hierarchy:dataset` value with colon-free halves splits back into the two halves |
| Request.TopLevelAreaNum | js/area_utils.js:139-144 | the `levels` filter becomes 0 or 2 for the constituency and ward hierarchies, and stays as it was for every other hierarchy |
| Request.TopLevelPath | js/area_utils.js:137-147 | for a drop-down value `hierarchy:dataset` whose two halves hold no colon, the top-level path is dataset, `.json`, context, key, `&geog=` and hierarchy, then the `levels` filter. The filter is 2 for the ward hierarchy, 0 for the constituency hierarchy, and otherwise the previous value, which is also stored |
| Request.SubAreaPath | js/area_utils.js:148-152 | for a drop-down value `hierarchy:dataset` whose two halves hold no colon, the sub-area path is dataset, `/parent/` and the parent code, `.json`, context, key, `&geog=` and hierarchy |
| Request.LevelsFilterStaysKnown | js/area_utils.js:137-145 | the stored `levels` filter, which the script starts at 2, only ever holds 0 or 2 |
| Request.SubAreaPathInjective | js/area_utils.js:148-152 | different parent codes give different sub-area paths for the same drop-down value |
| Request.NodeUrl | js/area_utils.js:533-539 | the address a node asks for when it opens is the endpoint followed by the sub-area path for that node's code, whatever the globals hold |
| Request.GoClick | js/area_utils.js:83-88 | the initialise button asks for the top-level areas, with the memoised depth zeroed and its flag lowered, and the drop-down's hierarchy current |
| Request.GoClickLooksUpAfresh | js/area_utils.js:83-88 | after the initialise button the next lookup answers for the newly selected hierarchy: its table depth, or 0 if it is unknown |
| Request.RequestWithoutResetIsStale | js/area_utils.js:122-134 | a request made without a reset, after the depth was looked up, leaves the old depth in force whatever hierarchy it selects |
| DemoTree.Rebracket | js/area_utils.js:718-740 | a repaired piece gains one character at each cut end: an opening brace unless it is the first piece, and a closing brace if it is the first piece or any but the last |
| DemoTree.RebracketRecovers | js/area_utils.js:713-741 | cutting two or more joined object fragments at every `}, {` and repairing each piece's braces gives back each fragment, when none contains the separator |
| DemoTree.Creates | js/area_utils.js:716-741 | evaluating node texts in turn creates the longest run of accepted texts from the front, and stops at the first rejected one, which is not created |
| DemoTree.StopsAtFirstRejectionUnique | js/area_utils.js:716-741 | only one outcome stops at the first rejected text |
| DemoTree.CreatesAll | js/area_utils.js:716-741 | when the evaluator accepts every text, every text is created, in order, and the loop completes |
| DemoTree.CreateChildren | js/area_utils.js:713-741 | the loop hands the evaluator the repaired pieces from the last to the first, and the children created are those before the first text the evaluator rejects |
| DemoTree.OpenNode | js/area_utils.js:688-743 | a node element with three or more child elements is left alone; a code with no stored response creates nothing; otherwise the stored response is normalised in demonstration mode and its pieces are created until the evaluator rejects one; the globals never change |
| DemoTree.CreationReversed | js/area_utils.js:713-741 | two or more joined object fragments free of the separator are handed to the evaluator whole, in reverse order |
| DemoTree.OpenNodeTexts | js/area_utils.js:693-741 | opening a node whose stored response lists two or more areas, when no label, code or type contains `}, {`, hands the evaluator one text per area, in reverse order. Each text is the area's own fragment, closed exactly when its level is below 2 |
| DemoTree.OpenNodeCreatesEachArea | js/area_utils.js:693-741 | when the stored response lists two or more areas, no label, code or type contains `}, {`, and the evaluator accepts every area's text, opening the node gives every area its child, in reverse order, and the loop completes |
| DemoTree.SingleFragmentGainsBrace | js/area_utils.js:716-724 | with a lone braced fragment that does not contain `}, {`, the text handed to the evaluator is the fragment plus a stray `}`, not the fragment; if the evaluator rejects it, no child is created, and otherwise that text is the only child |
| DemoTree.IntendedRecovers | js/area_utils.js:713-741 | with the lone-piece case left unrepaired, every non-empty list of object fragments free of the separator comes back whole, in reverse order |
| Whitespace.RemoveAll | js/area_utils.js:756 | no whitespace character is left in the result, which is no longer than the input |
| Whitespace.RemoveAllCounts | js/area_utils.js:756 | every character that is not whitespace occurs in the result exactly as often as in the input |
| Whitespace.RemoveAllChar | js/area_utils.js:756 | a single character is deleted if it is whitespace and kept otherwise |
| Whitespace.RemoveAllConcat | js/area_utils.js:756 | deleting whitespace from two texts joined is deleting it from each and joining the results, so together with the single-character case the result is the input's non-whitespace characters in order |
| Whitespace.RemoveWhiteSpace | js/area_utils.js:755-757 | the stripper leaves no whitespace character and equals deleting every whitespace character |
| Whitespace.RemoveWhiteSpaceDeletesSpaces | js/area_utils.js:755-757 | the stripper equals deleting every whitespace character, so its trimming step is redundant, and it is idempotent |
| Whitespace.RemoveAllFixed | js/area_utils.js:756 | deleting whitespace leaves a text unchanged if and only if it holds no whitespace |
| Fixtures.TopLevelFragment | js/area_utils.js:763-767 | the stored top-level response, a lone object, yields one expandable fragment reading back as England and Wales, K04000001, `NAT ` |
| Fixtures.TopLevelFragmentWelsh | js/area_utils.js:763-767 | with the Welsh language index the same fragment carries the label Cymru a Lloegr |
| Fixtures.OpenEnglandAndWales | js/area_utils.js:774-780 | opening England and Wales in the demonstration hands the evaluator Wales, then England, both expandable; when the evaluator accepts both texts, both children are created in that order and the loop completes |
| Fixtures.WelshAuthoritiesInDemo | js/area_utils.js:799-812 | in the demonstration the Welsh unitary authorities, at level 3, are leaves |
| Fixtures.WardHierarchyDepth | js/area_utils.js:438-441 | pressing the button with the ward hierarchy selected makes 5 the deepest level |
| Fixtures.WelshAuthoritiesLive | js/area_utils.js:395-402 | through the live service, right after the ward hierarchy is selected, the same authorities are expandable |

## Left out

- `js/jquery.iecors.js`, the cross-domain transport shim for old browsers, is not part of this model.
- The network call `getData` and its ajax settings, timeout and error alert are left out. The model produces the request path, and the response arrives as a parameter.
- The document-ready hook, apart from the page reset it makes, and all DOM work are left out: the twirly class changes, emptying the tree box, and alerts. They have no effect on the data.
- `processData` and `validateJson` are left out. Validation stores the response and always succeeds, so the model passes the response straight to the normaliser.
- The jstree configuration (icons, plugins, selection limit, the select handler) and the widget's `$.parseJSON("[" + text + "]")` are left out. No JSON parser is modelled; `Fragments.ParseFragment` reads back only the fragment shape the script writes.
- Where the widget inserts each node is left out. `DemoTree.CreateChildren` models the order of the create calls and the text handed to each.
- DemoTree.CreateChildren: the JavaScript evaluator is a parameter saying which node texts it accepts, because no JavaScript parser is modelled. The model does not decide which texts throw. It promises only that the children created are the texts accepted before the first rejected one, and that a rejection ends the handler. A label holding a double quote or a line break can make a text throw, for instance.
- The stored responses are only partly transcribed. `Fixtures` copies five areas by hand and cuts the Wales response to its first two authorities.
- Every wire item is assumed to carry all its fields: a label for the chosen language with its `$` text, an `itemCode`, and an `areaType` with abbreviation and level. The script does not check them. A label entry without `$` (lines 364 and 379) or a missing `itemCode` (lines 366 and 382) puts the text `undefined` into the fragment. A missing `areaType` (lines 368, 385 and 390) throws a TypeError, which ends the normaliser. Neither behaviour is modelled.
- The language read from the page (line 132) is a parameter. A missing label for it is excluded by a precondition, because the script has no fallback and would fail.
- The globals `jsonObject`, `obj` and `data` are left out, because no modelled result depends on them. `resetPage` clears them.
- The global `jsonAreaData` is carried only as the normaliser's return value. Its clearing by `resetPage` (line 101) is not modelled, because the normaliser itself starts it from the empty text (line 357) before every use the model covers.
- Fragments.ParseJsonArea: requires quote-free fields, because the script pastes values in unescaped and a quote would change the text's shape.
- Fragments.JsonAreaChild: its own contract fixes only the prefix. `Fragments.WrappersAgree` states the rest, in terms of the unopened root text, which `Fragments.JsonAreaUK` fixes exactly.
- DemoTree.OpenNodeTexts: needs two or more areas, and no label, code or type containing `}, {`. A lone fragment gains a stray brace, which Findings records. A field holding `}, {` makes the cut produce more texts than areas.
- DemoTree.OpenNodeCreatesEachArea: needs two or more areas and no label, code or type containing `}, {`, for the same reasons. It also needs the evaluator to accept every area's text, because the model does not decide which texts throw.
- DemoTree.RebracketRecovers: needs two or more fragments, none containing `}, {`, for the same reasons.

Behaviour of the script worth knowing:

- An unknown hierarchy does not raise an error: the lookup keeps the previously stored number.
- The memoised depth is not recomputed when a different hierarchy is selected. It stays until the page is reset. The page is reset when the page loads (line 82) and when the initialise button is pressed (line 85).
- A lone object is not classified like a one-element array: it is always expandable.
- A missing label for the chosen language has no fallback.
- An empty parent code is not rejected: it goes into the path as it is.

## Findings

| source | as written | input that shows it | evidently intended | confidence | as-written member | corrected member |
|---|---|---|---|---|---|---|
| js/area_utils.js:716-724 | the first piece of the cut text always gets a `}` appended, even when it is the only piece | a stored response with one area: the text `{"data": "A" , "attr": {"id": "X", "rel": "T"}}` has no `}, {`, so it is one piece, and the create expression is built with that text plus `}`. The stray brace makes `eval` throw a syntax error at line 723, so no child is created | a lone piece is already a whole object and is created unchanged | high, not executed | DemoTree.SingleFragmentGainsBrace | DemoTree.IntendedRecovers |

=== FILE: demo.dfy ===
/**
 * The offline demonstration's node-open handler. With no live service the
 * sub-areas of a node come from stored responses keyed by the node's area
 * code; the handler normalises the stored response into the joined fragment
 * text, cuts that text apart again at every `}, {`, restores the braces the
 * cut removed, and, last piece first, evaluates a widget `create` call with
 * each piece pasted in as an object literal.
 *
 * The JavaScript evaluator is not part of this model: it is a parameter
 * saying for which node texts the `create` expression, with the text pasted
 * in, runs without throwing. A text that throws, a syntax error for
 * instance, ends the handler, so that piece and the pieces after it are
 * never created.
 *
 * The cut-and-rebracket step gives back the original fragments exactly when
 * there are at least two of them and no label, code or type contains the
 * separator. With a single fragment the first-piece rule appends a stray
 * closing brace.
 */
module DemoTree {
  import opened Strings
  import opened Hierarchy
  import opened Fragments
  import opened Extract

  /** Text shaped like one JSON object: opens with `{` and closes with `}`. */
  predicate Braced(f: string)
  {
    |f| >= 2 && f[0] == '{' && f[|f| - 1] == '}'
  }

  /** Putting back the braces a cut removed restores the object text. */
  lemma BracesRestore(f: string)
    requires Braced(f)
    ensures f[..|f| - 1] + "}" == f
    ensures "{" + f[1..] == f
    ensures "{" + f[1..|f| - 1] + "}" == f
  {
    assert f == [f[0]] + f[1..|f| - 1] + [f[|f| - 1]];
  }

  /** Every fragment is shaped like one JSON object. */
  predicate AllBraced(frags: seq<string>)
  {
    forall i | 0 <= i < |frags| :: Braced(frags[i])
  }

  /**
   * The brace repair for piece `i` of the cut text: the first piece lost
   * its closing brace, the last its opening one, and every piece between
   * lost both.
   */
  function Rebracket(pieces: seq<string>, i: int): (r: string)
    requires 0 <= i < |pieces|
    ensures |r| == |pieces[i]| + (if 0 < i < |pieces| - 1 then 2 else 1)
    ensures 0 < i ==> r[0] == '{'
    ensures i == 0 || i < |pieces| - 1 ==> r[|r| - 1] == '}'
  {
    if i == 0 then pieces[i] + "}"
    else if i < |pieces| - 1 then "{" + pieces[i] + "}"
    else "{" + pieces[i]
  }

  /** Pieces repaired by the handler's rule, last piece first. */
  function PiecesOrder(pieces: seq<string>): (r: seq<string>)
    ensures |r| == |pieces|
  {
    seq(|pieces|, k requires 0 <= k < |pieces| => Rebracket(pieces, |pieces| - 1 - k))
  }

  /** The node texts in the order the handler hands them to the evaluator: last piece first. */
  function CreationOrder(jsonAreaData: string): (r: seq<string>)
    ensures |r| == |Split(jsonAreaData, Separator)|
  {
    PiecesOrder(Split(jsonAreaData, Separator))
  }

  /** `s` in reverse order. */
  function Reversed<T>(s: seq<T>): (r: seq<T>)
    ensures |r| == |s|
    ensures forall k :: 0 <= k < |s| ==> r[k] == s[|s| - 1 - k]
  {
    seq(|s|, k requires 0 <= k < |s| => s[|s| - 1 - k])
  }

  /**
   * The cut-apart pieces of the fragments after the first: every one loses
   * its opening brace and all but the last lose their closing one.
   */
  function TailPieces(frags: seq<string>): (r: seq<string>)
    requires |frags| >= 1 && AllBraced(frags)
    ensures |r| == |frags|
    decreases |frags|
  {
    if |frags| == 1 then [frags[0][1..]]
    else [frags[0][1..|frags[0]| - 1]] + TailPieces(frags[1..])
  }

  /** Which slice of its fragment each tail piece is. */
  lemma {:induction false} TailPiecesAt(frags: seq<string>, j: int)
    requires |frags| >= 1 && AllBraced(frags)
    requires 0 <= j < |frags|
    ensures TailPieces(frags)[j]
         == if j < |frags| - 1 then frags[j][1..|frags[j]| - 1] else frags[j][1..]
    decreases |frags|
  {
    if |frags| > 1 && j > 0 {
      TailPiecesAt(frags[1..], j - 1);
    }
  }

  /**
   * An opening brace in front of the joined tail pieces gives the fragments
   * joined by `comma`, when the separator is a closing brace, `comma` and an
   * opening brace.
   */
  lemma {:induction false} TailPiecesJoin(frags: seq<string>, comma: string, sep: string)
    requires |frags| >= 1 && AllBraced(frags) && sep == "}" + comma + "{"
    ensures "{" + Join(TailPieces(frags), sep) == Join(frags, comma)
    decreases |frags|
  {
    var f := frags[0];
    BracesRestore(f);
    if |frags| > 1 {
      var rest := frags[1..];
      AllBracedTail(frags);
      TailPiecesJoin(rest, comma, sep);
      var core := f[1..|f| - 1];
      var tj := Join(TailPieces(rest), sep);
      calc {
        "{" + Join(TailPieces(frags), sep);
      == { JoinCons(core, TailPieces(rest), sep); }
        "{" + (core + sep + tj);
      ==
        ("{" + core + "}") + comma + ("{" + tj);
      == { JoinCons(f, rest, comma); assert [f] + rest == frags; }
        Join(frags, comma);
      }
    }
  }

  /** The pieces the cut produces from at least two fragments joined by `", "`. */
  function Pieces(frags: seq<string>): (r: seq<string>)
    requires |frags| >= 2 && AllBraced(frags)
    ensures |r| == |frags|
  {
    [frags[0][..|frags[0]| - 1]] + TailPieces(frags[1..])
  }

  /** Dropping the first fragment keeps the rest shaped like objects. */
  lemma AllBracedTail(frags: seq<string>)
    requires |frags| >= 1 && AllBraced(frags)
    ensures AllBraced(frags[1..])
  {
    forall i | 0 <= i < |frags[1..]|
      ensures |frags[1..][i]| >= 2 && frags[1..][i][0] == '{' && frags[1..][i][|frags[1..][i]| - 1] == '}'
    {
      assert frags[1..][i] == frags[i + 1];
    }
  }

  /** The fragments joined by `comma` are their pieces joined by the separator. */
  lemma PiecesJoinWith(frags: seq<string>, comma: string, sep: string)
    requires |frags| >= 2 && AllBraced(frags) && sep == "}" + comma + "{"
    ensures Join(Pieces(frags), sep) == Join(frags, comma)
  {
    var f := frags[0];
    var head := f[..|f| - 1];
    AllBracedTail(frags);
    var tail := TailPieces(frags[1..]);
    var tj := Join(tail, sep);
    BracesRestore(f);
    calc {
      Join(Pieces(frags), sep);
    == { JoinCons(head, tail, sep); }
      head + sep + tj;
    ==
      (head + "}") + comma + ("{" + tj);
    == { TailPiecesJoin(frags[1..], comma, sep); }
      f + comma + Join(frags[1..], comma);
    == { JoinCons(f, frags[1..], comma); assert [f] + frags[1..] == frags; }
      Join(frags, comma);
    }
  }

  /** The fragments joined by `", "` are their pieces joined by the separator. */
  lemma PiecesJoin(frags: seq<string>)
    requires |frags| >= 2 && AllBraced(frags)
    ensures Join(Pieces(frags), Separator) == Join(frags, ", ")
  {
    assert Separator == "}" + ", " + "{";
    PiecesJoinWith(frags, ", ", Separator);
  }

  /** Each piece is a slice of its fragment, so it is free of the separator when the fragment is. */
  lemma PiecesFree(frags: seq<string>)
    requires |frags| >= 2 && AllBraced(frags)
    requires NoneContains(frags, Separator)
    ensures NoneContains(Pieces(frags), Separator)
  {
    forall i | 0 <= i < |frags|
      ensures !Contains(Pieces(frags)[i], Separator)
    {
      var f := frags[i];
      assert !Contains(f, Separator);
      if i == 0 {
        SliceFree(f, Separator, 0, |f| - 1);
        assert f[..|f| - 1] == f[0..|f| - 1];
      } else {
        TailPiecesAt(frags[1..], i - 1);
        assert frags[1..][i - 1] == f;
        if i < |frags| - 1 {
          SliceFree(f, Separator, 1, |f| - 1);
        } else {
          SliceFree(f, Separator, 1, |f|);
          assert f[1..] == f[1..|f|];
        }
      }
    }
  }

  /** The separator cannot overlap itself: its closing brace does not recur in it. */
  lemma SeparatorSelfSeparating()
    ensures SelfSeparating(Separator)
  {
    assert Separator[1..] == ", {";
  }

  /** Which slice of its fragment each piece is. */
  lemma PiecesAt(frags: seq<string>, i: int)
    requires |frags| >= 2 && AllBraced(frags) && 0 <= i < |frags|
    ensures Pieces(frags)[i]
         == if i == 0 then frags[i][..|frags[i]| - 1]
            else if i < |frags| - 1 then frags[i][1..|frags[i]| - 1]
            else frags[i][1..]
  {
    if i > 0 {
      AllBracedTail(frags);
      TailPiecesAt(frags[1..], i - 1);
      assert frags[1..][i - 1] == frags[i];
    }
  }

  /** Repairing each piece's braces restores its fragment. */
  lemma RebracketPiece(frags: seq<string>, i: int)
    requires |frags| >= 2 && AllBraced(frags) && 0 <= i < |frags|
    ensures Rebracket(Pieces(frags), i) == frags[i]
  {
    BracesRestore(frags[i]);
    PiecesAt(frags, i);
  }

  /**
   * Cutting the joined text at every separator and repairing the braces
   * gives back each original fragment, provided there are at least two of
   * them, each is shaped like an object, and none contains the separator.
   */
  lemma {:induction false} RebracketRecovers(frags: seq<string>)
    requires |frags| >= 2 && AllBraced(frags)
    requires NoneContains(frags, Separator)
    ensures Split(Join(frags, ", "), Separator) == Pieces(frags)
    ensures forall i :: 0 <= i < |frags| ==>
      Rebracket(Split(Join(frags, ", "), Separator), i) == frags[i]
  {
    PiecesJoin(frags);
    PiecesFree(frags);
    SeparatorSelfSeparating();
    SplitJoin(Pieces(frags), Separator);
    forall i | 0 <= i < |frags|
      ensures Rebracket(Pieces(frags), i) == frags[i]
    {
      RebracketPiece(frags, i);
    }
  }

  /**
   * With a single fragment the cut finds no separator, and the first-piece
   * rule appends a closing brace the fragment already has: the node text
   * handed to the evaluator is not the fragment. If the evaluator rejects
   * that text, no child is created at all.
   */
  lemma SingleFragmentGainsBrace(f: string, evaluates: string -> bool)
    requires Braced(f) && !Contains(f, Separator)
    ensures CreationOrder(Join([f], ", ")) == [f + "}"]
    ensures CreationOrder(Join([f], ", ")) != [f]
    ensures !evaluates(f + "}") ==> Creates(CreationOrder(Join([f], ", ")), evaluates) == Creation([], false)
    ensures evaluates(f + "}") ==> Creates(CreationOrder(Join([f], ", ")), evaluates) == Creation([f + "}"], true)
  {
    assert Join([f], ", ") == f;
    var pieces := Split(f, Separator);
    assert pieces == [f];
    var r := CreationOrder(f);
    assert r[0] == Rebracket(pieces, 0) == f + "}";
    assert r == [f + "}"];
    assert |r[0]| != |f|;
    assert r[1..] == [];
  }

  /** The brace repair with the lone-piece case left alone: one piece is already a whole object. */
  function RebracketIntended(pieces: seq<string>, i: int): string
    requires 0 <= i < |pieces|
  {
    if |pieces| == 1 then pieces[0] else Rebracket(pieces, i)
  }

  /** Pieces repaired under the intended rule, last piece first. */
  function IntendedOrder(pieces: seq<string>): (r: seq<string>)
    ensures |r| == |pieces|
  {
    seq(|pieces|, k requires 0 <= k < |pieces| => RebracketIntended(pieces, |pieces| - 1 - k))
  }

  /** The node texts, last piece first, under the repaired brace rule. */
  function CreationOrderIntended(jsonAreaData: string): (r: seq<string>)
    ensures |r| == |Split(jsonAreaData, Separator)|
  {
    IntendedOrder(Split(jsonAreaData, Separator))
  }

  /**
   * Under the repaired rule every non-empty list of object-shaped fragments
   * free of the separator comes back whole, in reverse order.
   */
  lemma {:induction false} IntendedRecovers(frags: seq<string>)
    requires |frags| >= 1 && AllBraced(frags)
    requires NoneContains(frags, Separator)
    ensures CreationOrderIntended(Join(frags, ", ")) == Reversed(frags)
  {
    if |frags| == 1 {
      assert !Contains(frags[0], Separator);
      LonePieceKept(frags[0]);
      assert [frags[0]] == frags;
    } else {
      ManyPiecesKept(frags);
    }
  }

  /** With two or more fragments the repaired rule agrees with the handler's. */
  lemma ManyPiecesKept(frags: seq<string>)
    requires |frags| >= 2 && AllBraced(frags)
    requires NoneContains(frags, Separator)
    ensures CreationOrderIntended(Join(frags, ", ")) == Reversed(frags)
  {
    var text := Join(frags, ", ");
    RebracketRecovers(frags);
    var pieces := Split(text, Separator);
    forall i | 0 <= i < |frags|
      ensures RebracketIntended(pieces, i) == frags[i]
    {
      assert RebracketIntended(pieces, i) == Rebracket(pieces, i);
    }
    PiecesInReverse(pieces, frags);
  }

  /** Pieces that each repair to their fragment come back as the fragments reversed. */
  lemma PiecesInReverse(pieces: seq<string>, frags: seq<string>)
    requires |pieces| == |frags|
    requires forall i :: 0 <= i < |frags| ==> RebracketIntended(pieces, i) == frags[i]
    ensures IntendedOrder(pieces) == Reversed(frags)
  {
    var created := IntendedOrder(pieces);
    assert forall k :: 0 <= k < |created| ==> created[k] == frags[|frags| - 1 - k];
  }

  /** A lone fragment free of the separator is one piece, kept as it is. */
  lemma LonePieceKept(f: string)
    requires !Contains(f, Separator)
    ensures CreationOrderIntended(Join([f], ", ")) == [f]
  {
    assert Join([f], ", ") == f;
    var pieces := Split(f, Separator);
    assert pieces == [f];
    assert IntendedOrder(pieces)[0] == RebracketIntended(pieces, 0) == f;
    assert IntendedOrder(pieces) == [f];
  }

  /**
   * What the creation loop achieves: the node texts that were created, in
   * order, and whether the loop ran to its end.
   */
  datatype Creation = Creation(created: seq<string>, completed: bool)

  /**
   * `c` is what evaluating the texts of `order` one after another yields
   * when `evaluates` says which texts the evaluator accepts: the longest run
   * of accepted texts from the front, completed exactly when that run is
   * all of `order`, and otherwise stopped by a rejected text.
   */
  predicate StopsAtFirstRejection(order: seq<string>, evaluates: string -> bool, c: Creation)
  {
    |c.created| <= |order| && c.created == order[..|c.created|]
    && (forall k :: 0 <= k < |c.created| ==> evaluates(order[k]))
    && (c.completed <==> |c.created| == |order|)
    && (!c.completed ==> !evaluates(order[|c.created|]))
  }

  /** Evaluating the texts of `order` in turn until one is rejected. */
  function Creates(order: seq<string>, evaluates: string -> bool): (r: Creation)
    ensures StopsAtFirstRejection(order, evaluates, r)
    decreases |order|
  {
    if |order| == 0 then Creation([], true)
    else if !evaluates(order[0]) then Creation([], false)
    else
      var rest := Creates(order[1..], evaluates);
      assert forall k :: 1 <= k <= |rest.created| ==> order[k] == order[1..][k - 1];
      Creation([order[0]] + rest.created, rest.completed)
  }

  /** There is only one way to stop at the first rejection. */
  lemma StopsAtFirstRejectionUnique(order: seq<string>, evaluates: string -> bool, c1: Creation, c2: Creation)
    requires StopsAtFirstRejection(order, evaluates, c1)
    requires StopsAtFirstRejection(order, evaluates, c2)
    ensures c1 == c2
  {
  }

  /** When every text is accepted, every text is created, in order. */
  lemma CreatesAll(order: seq<string>, evaluates: string -> bool)
    requires forall k :: 0 <= k < |order| ==> evaluates(order[k])
    ensures Creates(order, evaluates) == Creation(order, true)
  {
    assert order[..|order|] == order;
  }

  /**
   * The creation loop as the handler runs it: from the last piece down to
   * the first, each piece is repaired and handed to the evaluator; the first
   * rejected text ends the loop.
   */
  method CreateChildren(jsonAreaData: string, evaluates: string -> bool) returns (r: Creation)
    ensures StopsAtFirstRejection(CreationOrder(jsonAreaData), evaluates, r)
    ensures r == Creates(CreationOrder(jsonAreaData), evaluates)
  {
    var arrayJsonAreas := Split(jsonAreaData, Separator);
    var n := |arrayJsonAreas|;
    ghost var order := CreationOrder(jsonAreaData);
    var created: seq<string> := [];
    var i := n - 1;
    while i > -1
      invariant -1 <= i < n
      invariant |created| == n - 1 - i
      invariant created == order[..n - 1 - i]
      invariant forall k :: 0 <= k < |created| ==> evaluates(order[k])
    {
      var jsondata: string;
      if i == 0 {
        jsondata := arrayJsonAreas[i] + "}";
      } else if i > 0 && i < n - 1 {
        jsondata := "{" + arrayJsonAreas[i] + "}";
      } else {
        jsondata := "{" + arrayJsonAreas[i];
      }
      assert jsondata == Rebracket(arrayJsonAreas, i);
      assert jsondata == order[n - 1 - i];
      if !evaluates(jsondata) {
        r := Creation(created, false);
        StopsAtFirstRejectionUnique(order, evaluates, r, Creates(order, evaluates));
        return;
      }
      created := created + [jsondata];
      i := i - 1;
    }
    assert created == order;
    r := Creation(created, true);
    StopsAtFirstRejectionUnique(order, evaluates, r, Creates(order, evaluates));
  }

  /** What opening a node does in the demonstration. */
  datatype OpenResult =
    | AlreadyPopulated
    | NoStoredResponse
    | Populated(jsonAreaData: string, creation: Creation)

  /**
   * Opening a node. A node showing three or more child elements already
   * has its sub-areas and is left alone. Otherwise the stored response for
   * its area code is normalised in demonstration mode and the children are
   * created from the cut-apart text until the evaluator rejects one. A code
   * with no stored response ends the handler without creating anything. The
   * globals are never touched.
   */
  method OpenNode(childCount: nat, nodeId: string, responses: map<string, ItemField>,
                  language: nat, evaluates: string -> bool, g: Globals)
    returns (r: OpenResult, after: Globals)
    requires nodeId in responses ==> LabelsPresent(responses[nodeId], language)
    ensures after == g
    ensures childCount >= 3 ==> r == AlreadyPopulated
    ensures childCount < 3 && nodeId !in responses ==> r == NoStoredResponse
    ensures childCount < 3 && nodeId in responses ==>
      var text := Join(AreaFragments(responses[nodeId], Demo, language, g).fragments, ", ");
      r == Populated(text, Creates(CreationOrder(text), evaluates))
  {
    after := g;
    if childCount >= 3 {
      return AlreadyPopulated, after;
    }
    if nodeId !in responses {
      return NoStoredResponse, after;
    }
    var text, g1 := ExtractAreaData(responses[nodeId], Demo, language, g);
    var creation := CreateChildren(text, evaluates);
    r := Populated(text, creation);
  }

  /**
   * Opening a node whose stored response lists two or more areas, none of
   * whose labels, codes or types contain the separator, hands the evaluator
   * one text per area: the areas' fragments in reverse order, each built
   * from the area's own label, code and type, closed exactly when the
   * area's level is below 2.
   */
  lemma OpenNodeTexts(items: seq<WireItem>, language: nat, g: Globals)
    requires |items| >= 2 && LabelsPresent(Many(items), language)
    requires forall i :: 0 <= i < |items| ==>
      !Contains(items[i].labels[language], Separator) && !Contains(items[i].itemCode, Separator)
      && !Contains(items[i].areaType.abbreviation, Separator)
    ensures var frags := AreaFragments(Many(items), Demo, language, g).fragments;
      CreationOrder(Join(frags, ", ")) == Reversed(frags)
    ensures var frags := AreaFragments(Many(items), Demo, language, g).fragments;
      forall i :: 0 <= i < |items| ==>
        frags[i] == Fragment(items[i], language, items[i].areaType.level < 2)
  {
    var frags := AreaFragments(Many(items), Demo, language, g).fragments;
    ManyFragmentsOrdered(items, Demo, language, g);
    FragmentsSeparable(items, language, g);
    CreationReversed(frags);
  }

  /**
   * When the evaluator accepts every area's text, opening such a node
   * gives every area its child, in reverse order.
   */
  lemma OpenNodeCreatesEachArea(items: seq<WireItem>, language: nat, evaluates: string -> bool, g: Globals)
    requires |items| >= 2 && LabelsPresent(Many(items), language)
    requires forall i :: 0 <= i < |items| ==>
      !Contains(items[i].labels[language], Separator) && !Contains(items[i].itemCode, Separator)
      && !Contains(items[i].areaType.abbreviation, Separator)
    requires forall i :: 0 <= i < |items| ==>
      evaluates(Fragment(items[i], language, items[i].areaType.level < 2))
    ensures var frags := AreaFragments(Many(items), Demo, language, g).fragments;
      Creates(CreationOrder(Join(frags, ", ")), evaluates) == Creation(Reversed(frags), true)
  {
    var frags := AreaFragments(Many(items), Demo, language, g).fragments;
    OpenNodeTexts(items, language, g);
    var order := Reversed(frags);
    forall k | 0 <= k < |order|
      ensures evaluates(order[k])
    {
      var j := |frags| - 1 - k;
      assert order[k] == frags[j] == Fragment(items[j], language, items[j].areaType.level < 2);
    }
    CreatesAll(order, evaluates);
  }

  /**
   * Two or more object fragments free of the separator, joined and cut
   * apart by the handler, are handed to the evaluator whole and in reverse
   * order.
   */
  lemma {:induction false} CreationReversed(frags: seq<string>)
    requires |frags| >= 2 && AllBraced(frags)
    requires NoneContains(frags, Separator)
    ensures CreationOrder(Join(frags, ", ")) == Reversed(frags)
  {
    var text := Join(frags, ", ");
    RebracketRecovers(frags);
    PiecesOrderReversed(Split(text, Separator), frags);
  }

  /** Pieces that each repair to their fragment are created as the fragments reversed. */
  lemma PiecesOrderReversed(pieces: seq<string>, frags: seq<string>)
    requires |pieces| == |frags|
    requires forall i :: 0 <= i < |frags| ==> Rebracket(pieces, i) == frags[i]
    ensures PiecesOrder(pieces) == Reversed(frags)
  {
    var created := PiecesOrder(pieces);
    assert forall k :: 0 <= k < |created| ==> created[k] == frags[|frags| - 1 - k];
  }

  /** Fragments built from areas free of the separator are object-shaped and free of it too. */
  lemma FragmentsSeparable(items: seq<WireItem>, language: nat, g: Globals)
    requires LabelsPresent(Many(items), language)
    requires forall i :: 0 <= i < |items| ==>
      !Contains(items[i].labels[language], Separator) && !Contains(items[i].itemCode, Separator)
      && !Contains(items[i].areaType.abbreviation, Separator)
    ensures AllBraced(AreaFragments(Many(items), Demo, language, g).fragments)
    ensures NoneContains(AreaFragments(Many(items), Demo, language, g).fragments, Separator)
  {
    var frags := AreaFragments(Many(items), Demo, language, g).fragments;
    ManyFragmentsOrdered(items, Demo, language, g);
    forall i | 0 <= i < |items|
      ensures Braced(frags[i]) && !Contains(frags[i], Separator)
    {
      var it := items[i];
      JsonAreaFree(it.labels[language], it.itemCode, it.areaType.abbreviation, it.areaType.level < 2);
    }
  }
}

=== FILE: extract.dfy ===
/**
 * The area normaliser: turns the `item` member of a hierarchy response into
 * the comma-separated fragment text the tree widget is given.
 *
 * The member arrives either as one object or as an array of objects. A lone
 * object is the top of the tree and is always expandable; each element of
 * an array is expandable when its level lies above the hierarchy's deepest
 * level (looked up through the memoised table) when the live service is in
 * use, or above level 2 in the offline demonstration.
 */
module Extract {
  import opened Wrappers
  import opened Strings
  import opened Hierarchy
  import opened Fragments

  /** The `areaType` member of an item: abbreviation, full name and depth level. */
  datatype AreaType = AreaType(abbreviation: string, codename: string, level: int)

  /** One area as the service sends it: its labels, one per language, its code and its type. */
  datatype WireItem = WireItem(labels: seq<string>, itemCode: string, areaType: AreaType)

  /** The `item` member: one object, or an array of them. */
  datatype ItemField = Single(item: WireItem) | Many(items: seq<WireItem>)

  /** Whether the live service or the stored demonstration responses are used. */
  datatype Mode = Api | Demo

  /** The item has a label for the chosen language index. */
  predicate HasLabel(it: WireItem, language: nat)
  {
    language < |it.labels|
  }

  /** Every item of the member has a label for the chosen language index. */
  predicate LabelsPresent(field: ItemField, language: nat)
  {
    match field
    case Single(it) => HasLabel(it, language)
    case Many(items) => forall i :: 0 <= i < |items| ==> HasLabel(items[i], language)
  }

  /** The fragment for one item, labelled in the chosen language. */
  function Fragment(it: WireItem, language: nat, isParent: bool): string
    requires HasLabel(it, language)
  {
    JsonArea(it.labels[language], it.itemCode, it.areaType.abbreviation, isParent)
  }

  /** The expandability decision for one array element, with the globals after it. */
  datatype Classified = Classified(isParent: bool, globals: Globals)

  /**
   * Decides whether an array element is expandable. Only the live-service
   * branch consults the memoised deepest level, and so only it can change
   * the globals.
   */
  function Classify(it: WireItem, mode: Mode, g: Globals): (r: Classified)
    ensures r.isParent <==> Expandable(mode, it.areaType.level, g)
    ensures mode == Demo ==> r.globals == g
    ensures mode == Api ==> r.globals.gotMaxLevelNumber && GetMaxLevel(r.globals) == GetMaxLevel(g)
  {
    match mode
    case Api =>
      var lookup := GetMaxLevel(g);
      Classified(it.areaType.level < lookup.level, lookup.globals)
    case Demo => Classified(it.areaType.level < 2, g)
  }

  /**
   * The rule a whole batch follows: below the memoised deepest level for
   * the live service, below level 2 for the demonstration.
   */
  predicate Expandable(mode: Mode, level: int, g: Globals)
  {
    match mode
    case Api => level < GetMaxLevel(g).level
    case Demo => level < 2
  }

  /** The fragments produced for a member, and the globals after producing them. */
  datatype Extraction = Extraction(fragments: seq<string>, globals: Globals)

  /** The fragments for an array member, element by element in order. */
  function ManyFragments(items: seq<WireItem>, mode: Mode, language: nat, g: Globals): (r: Extraction)
    requires LabelsPresent(Many(items), language)
    ensures |r.fragments| == |items|
    decreases |items|
  {
    if |items| == 0 then Extraction([], g)
    else
      var c := Classify(items[0], mode, g);
      var rest := ManyFragments(items[1..], mode, language, c.globals);
      Extraction([Fragment(items[0], language, c.isParent)] + rest.fragments, rest.globals)
  }

  /** The fragments for either shape of the member. */
  function AreaFragments(field: ItemField, mode: Mode, language: nat, g: Globals): (r: Extraction)
    requires LabelsPresent(field, language)
    ensures |r.fragments| == match field case Single(_) => 1 case Many(items) => |items|
    ensures field.Single? ==> r.globals == g
  {
    match field
    case Single(it) => Extraction([Fragment(it, language, true)], g)
    case Many(items) => ManyFragments(items, mode, language, g)
  }

  /**
   * Every element of an array gets its own fragment, in order, and all of
   * them are judged against one deepest level: the first element fixes the
   * memoised value and the others reuse it. The demonstration never touches
   * the globals; the live service leaves them as one lookup does.
   */
  lemma {:induction false} ManyFragmentsOrdered(items: seq<WireItem>, mode: Mode, language: nat, g: Globals)
    requires LabelsPresent(Many(items), language)
    ensures forall i :: 0 <= i < |items| ==>
      ManyFragments(items, mode, language, g).fragments[i]
        == Fragment(items[i], language, Expandable(mode, items[i].areaType.level, g))
    ensures mode == Demo || |items| == 0 ==> ManyFragments(items, mode, language, g).globals == g
    ensures mode == Api && |items| > 0 ==>
      ManyFragments(items, mode, language, g).globals == GetMaxLevel(g).globals
    decreases |items|
  {
    if |items| > 0 {
      var c := Classify(items[0], mode, g);
      var tail := items[1..];
      ManyFragmentsStep(items, mode, language, g, c.isParent, c.globals, []);
      ManyFragmentsOrdered(tail, mode, language, c.globals);
      var r := ManyFragments(items, mode, language, g);
      var rest := ManyFragments(tail, mode, language, c.globals);
      if mode == Api {
        LookupIdempotent(g);
        assert GetMaxLevel(c.globals) == GetMaxLevel(g);
      }
      forall i | 0 <= i < |items|
        ensures r.fragments[i] == Fragment(items[i], language, Expandable(mode, items[i].areaType.level, g))
      {
        if i > 0 {
          assert r.fragments[i] == rest.fragments[i - 1];
          assert tail[i - 1] == items[i];
        }
      }
    }
  }

  /**
   * A lone object yields exactly one fragment, always expandable, without
   * consulting or changing the globals.
   */
  lemma SingleIsOneExpandable(it: WireItem, mode: Mode, language: nat, g: Globals)
    requires HasLabel(it, language)
    requires Unquoted(it.labels[language]) && Unquoted(it.itemCode) && Unquoted(it.areaType.abbreviation)
    ensures |AreaFragments(Single(it), mode, language, g).fragments| == 1
    ensures ParseFragment(AreaFragments(Single(it), mode, language, g).fragments[0])
         == Some(AreaFields(it.labels[language], it.itemCode, it.areaType.abbreviation, true))
    ensures AreaFragments(Single(it), mode, language, g).globals == g
  {
    ParseJsonArea(it.labels[language], it.itemCode, it.areaType.abbreviation, true);
  }

  /**
   * The two shapes of the member are not interchangeable: a lone object and
   * a one-element array holding it yield the same text exactly when the
   * element would be judged expandable anyway.
   */
  lemma SingleMatchesSingletonIff(it: WireItem, mode: Mode, language: nat, g: Globals)
    requires HasLabel(it, language)
    ensures AreaFragments(Single(it), mode, language, g).fragments
         == AreaFragments(Many([it]), mode, language, g).fragments
        <==> Expandable(mode, it.areaType.level, g)
  {
    ManyFragmentsOrdered([it], mode, language, g);
    var e := Expandable(mode, it.areaType.level, g);
    if !e {
      var t := Fragment(it, language, true);
      var f := Fragment(it, language, false);
      assert |t| != |f| by { assert |ClosedTail| != |LeafTail|; }
      assert [t] != [f];
    }
  }

  /**
   * What every fragment of an array member says, read back: the element's
   * label, code and type abbreviation, closed exactly when the batch rule
   * calls it expandable.
   */
  lemma ManyFragmentsRead(items: seq<WireItem>, mode: Mode, language: nat, g: Globals, i: int)
    requires LabelsPresent(Many(items), language) && 0 <= i < |items|
    requires Unquoted(items[i].labels[language]) && Unquoted(items[i].itemCode)
    requires Unquoted(items[i].areaType.abbreviation)
    ensures ParseFragment(ManyFragments(items, mode, language, g).fragments[i])
         == Some(AreaFields(items[i].labels[language], items[i].itemCode,
                            items[i].areaType.abbreviation,
                            Expandable(mode, items[i].areaType.level, g)))
  {
    ManyFragmentsOrdered(items, mode, language, g);
    var it := items[i];
    ParseJsonArea(it.labels[language], it.itemCode, it.areaType.abbreviation,
                  Expandable(mode, it.areaType.level, g));
  }

  /** One element's worth of an array member's fragments. */
  lemma ManyFragmentsStep(items: seq<WireItem>, mode: Mode, language: nat, g: Globals,
                          isParent: bool, after: Globals, done: seq<string>)
    requires LabelsPresent(Many(items), language) && |items| > 0
    requires Classify(items[0], mode, g) == Classified(isParent, after)
    ensures LabelsPresent(Many(items[1..]), language)
    ensures ManyFragments(items, mode, language, g)
         == Extraction([Fragment(items[0], language, isParent)]
                         + ManyFragments(items[1..], mode, language, after).fragments,
                       ManyFragments(items[1..], mode, language, after).globals)
    ensures done + ManyFragments(items, mode, language, g).fragments
         == done + [Fragment(items[0], language, isParent)]
            + ManyFragments(items[1..], mode, language, after).fragments
  {
    assert forall i | 0 <= i < |items[1..]| :: items[1..][i] == items[i + 1];
  }

  /** Appending a fragment the way the loop does keeps the text a join of the fragments so far. */
  lemma AppendStep(done: seq<string>, fragment: string, text: string)
    requires text == Join(done, ", ")
    ensures |done| > 0 ==> text + ", " + fragment == Join(done + [fragment], ", ")
    ensures |done| == 0 ==> text + fragment == Join(done + [fragment], ", ")
  {
    JoinSnoc(done, fragment, ", ");
    if |done| == 0 {
      assert text + fragment == fragment;
    }
  }

  /**
   * The normaliser as the script runs it: a lone object becomes one
   * expandable fragment; an array is walked by `ExtractArray`. The text is
   * the fragments of `AreaFragments` joined with `", "`, and the globals
   * end as `AreaFragments` leaves them.
   */
  method ExtractAreaData(field: ItemField, mode: Mode, language: nat, g: Globals)
    returns (jsonAreaData: string, after: Globals)
    requires LabelsPresent(field, language)
    ensures jsonAreaData == Join(AreaFragments(field, mode, language, g).fragments, ", ")
    ensures after == AreaFragments(field, mode, language, g).globals
  {
    match field {
      case Single(it) =>
        var fragment := JsonArea(it.labels[language], it.itemCode, it.areaType.abbreviation, true);
        jsonAreaData := fragment;
        after := g;
      case Many(items) =>
        jsonAreaData, after := ExtractArray(items, mode, language, g);
    }
  }

  /**
   * The loop over an array member: asks for the deepest level once per
   * element in live mode, and appends each fragment with `", "` before
   * every one but the first.
   */
  method ExtractArray(items: seq<WireItem>, mode: Mode, language: nat, g: Globals)
    returns (jsonAreaData: string, after: Globals)
    requires LabelsPresent(Many(items), language)
    ensures jsonAreaData == Join(ManyFragments(items, mode, language, g).fragments, ", ")
    ensures after == ManyFragments(items, mode, language, g).globals
  {
    jsonAreaData := "";
    after := g;
    ghost var done: seq<string> := [];
    var i := 0;
    while i < |items|
      invariant 0 <= i <= |items| && |done| == i
      invariant jsonAreaData == Join(done, ", ")
      invariant LabelsPresent(Many(items[i..]), language)
      invariant ManyFragments(items, mode, language, g)
             == Extraction(done + ManyFragments(items[i..], mode, language, after).fragments,
                           ManyFragments(items[i..], mode, language, after).globals)
    {
      var it := items[i];
      var c := Classify(it, mode, after);
      var fragment := JsonArea(it.labels[language], it.itemCode, it.areaType.abbreviation, c.isParent);
      ManyFragmentsStep(items[i..], mode, language, after, c.isParent, c.globals, done);
      after := c.globals;
      AppendStep(done, fragment, jsonAreaData);
      if i > 0 {
        jsonAreaData := jsonAreaData + ", " + fragment;
      } else {
        jsonAreaData := jsonAreaData + fragment;
      }
      assert items[i..][1..] == items[i + 1..];
      done := done + [fragment];
      i := i + 1;
    }
    assert items[i..] == [];
    assert done + [] == done;
  }
}

=== FILE: fixtures.dfy ===
/**
 * A few areas copied by hand from the stored demonstration responses:
 * the top-level area, its two countries, and the first two Welsh unitary
 * authorities. The lemmas walk them through the model.
 */
module Fixtures {
  import opened Wrappers
  import opened Strings
  import opened Hierarchy
  import opened Fragments
  import opened Extract
  import opened Request
  import opened DemoTree

  const EnglandAndWales: WireItem :=
    WireItem(["England and Wales", "Cymru a Lloegr"], "K04000001", AreaType("NAT ", "England and Wales", 0))
  const England: WireItem :=
    WireItem(["England", "Lloegr"], "E92000001", AreaType("CTRY", "Country", 1))
  const Wales: WireItem :=
    WireItem(["Wales", "Cymru"], "W92000004", AreaType("CTRY", "Country", 1))
  const Anglesey: WireItem :=
    WireItem(["Isle of Anglesey", "Ynys Môn"], "W06000001", AreaType("UA", "Unitary Authority", 3))
  const Gwynedd: WireItem :=
    WireItem(["Gwynedd", "Gwynedd"], "W06000002", AreaType("UA", "Unitary Authority", 3))

  /** The stored responses, keyed by the parent code they answer for (Wales cut to two areas). */
  const Responses: map<string, ItemField> := map[
    "K04000001" := Many([England, Wales]),
    "W92000004" := Many([Anglesey, Gwynedd])]

  /** The top-level area's fields hold no double quote. */
  lemma TopLevelUnquoted(language: nat)
    requires language < 2
    ensures Unquoted(EnglandAndWales.labels[language]) && Unquoted(EnglandAndWales.itemCode)
    ensures Unquoted(EnglandAndWales.areaType.abbreviation)
  {
  }

  /** The top-level response is a lone object: one fragment, labelled in English, expandable. */
  lemma TopLevelFragment(mode: Mode, g: Globals)
    ensures ParseFragment(AreaFragments(Single(EnglandAndWales), mode, 0, g).fragments[0])
         == Some(AreaFields("England and Wales", "K04000001", "NAT ", true))
  {
    TopLevelUnquoted(0);
    SingleIsOneExpandable(EnglandAndWales, mode, 0, g);
  }

  /** With the Welsh language index the same fragment carries the Welsh label. */
  lemma TopLevelFragmentWelsh(mode: Mode, g: Globals)
    ensures ParseFragment(AreaFragments(Single(EnglandAndWales), mode, 1, g).fragments[0])
         == Some(AreaFields("Cymru a Lloegr", "K04000001", "NAT ", true))
  {
    TopLevelUnquoted(1);
    SingleIsOneExpandable(EnglandAndWales, mode, 1, g);
  }

  /** A label, code or type free of braces cannot contain the separator. */
  lemma ItemFree(it: WireItem, language: nat)
    requires HasLabel(it, language)
    requires '{' !in it.labels[language] && '{' !in it.itemCode && '{' !in it.areaType.abbreviation
    ensures !Contains(it.labels[language], Separator) && !Contains(it.itemCode, Separator)
    ensures !Contains(it.areaType.abbreviation, Separator)
  {
    BracelessFree(it.labels[language]);
    BracelessFree(it.itemCode);
    BracelessFree(it.areaType.abbreviation);
  }

  /**
   * Opening England and Wales in the demonstration hands the evaluator
   * Wales, then England, each from its own fragment and each expandable
   * (level 1 is below 2). When the evaluator accepts both texts, both
   * children are created, in that order.
   */
  lemma OpenEnglandAndWales(evaluates: string -> bool, g: Globals)
    requires evaluates(Fragment(Wales, 0, true)) && evaluates(Fragment(England, 0, true))
    ensures CreationOrder(Join(AreaFragments(Responses["K04000001"], Demo, 0, g).fragments, ", "))
         == [Fragment(Wales, 0, true), Fragment(England, 0, true)]
    ensures Creates(CreationOrder(Join(AreaFragments(Responses["K04000001"], Demo, 0, g).fragments, ", ")), evaluates)
         == Creation([Fragment(Wales, 0, true), Fragment(England, 0, true)], true)
  {
    var items := [England, Wales];
    assert Responses["K04000001"] == Many(items);
    CountriesOpen(items, g);
    CreatesAll([Fragment(Wales, 0, true), Fragment(England, 0, true)], evaluates);
  }

  /** The two countries' English labels, codes and types are free of the separator. */
  lemma CountriesFree(items: seq<WireItem>)
    requires items == [England, Wales]
    ensures LabelsPresent(Many(items), 0)
    ensures forall i :: 0 <= i < |items| ==>
      !Contains(items[i].labels[0], Separator) && !Contains(items[i].itemCode, Separator)
      && !Contains(items[i].areaType.abbreviation, Separator)
  {
    ItemFree(England, 0);
    ItemFree(Wales, 0);
  }

  /** The creation order for the two countries, with the stored response already looked up. */
  lemma CountriesOpen(items: seq<WireItem>, g: Globals)
    requires items == [England, Wales]
    ensures CreationOrder(Join(AreaFragments(Many(items), Demo, 0, g).fragments, ", "))
         == [Fragment(Wales, 0, true), Fragment(England, 0, true)]
  {
    CountriesFree(items);
    OpenNodeTexts(items, 0, g);
    var frags := AreaFragments(Many(items), Demo, 0, g).fragments;
    assert frags[0] == Fragment(England, 0, true);
    assert frags[1] == Fragment(Wales, 0, true);
  }

  /** In the demonstration the Welsh unitary authorities (level 3) are leaves, as 3 is not below 2. */
  lemma WelshAuthoritiesInDemo(g: Globals)
    ensures AreaFragments(Responses["W92000004"], Demo, 0, g).fragments
         == [Fragment(Anglesey, 0, false), Fragment(Gwynedd, 0, false)]
  {
    var items := [Anglesey, Gwynedd];
    assert Responses["W92000004"] == Many(items);
    ManyFragmentsOrdered(items, Demo, 0, g);
  }

  /** Pressing the button with the ward hierarchy selected makes 5 the deepest level. */
  lemma WardHierarchyDepth(g: Globals)
    ensures GetMaxLevel(GoClick("2011WARDH:QS611EW", g).globals).level == 5
  {
    assert "2011WARDH" + ":" + "QS611EW" == "2011WARDH:QS611EW";
    ParseSelectionOfPair("2011WARDH", "QS611EW");
    assert ParseSelection("2011WARDH:QS611EW").hierarchy == "2011WARDH";
    MaxLevelTableContents("2011WARDH");
    GoClickLooksUpAfresh("2011WARDH:QS611EW", g);
  }

  /**
   * Through the live service, right after selecting the ward hierarchy,
   * the same authorities are expandable, since 3 is below its depth of 5.
   */
  lemma WelshAuthoritiesLive(g: Globals)
    ensures AreaFragments(Responses["W92000004"], Api, 0,
                          GoClick("2011WARDH:QS611EW", g).globals).fragments
         == [Fragment(Anglesey, 0, true), Fragment(Gwynedd, 0, true)]
  {
    WardHierarchyDepth(g);
    AuthoritiesBelowDepth(GoClick("2011WARDH:QS611EW", g).globals);
  }

  /** Whenever the deepest level is 5, the level-3 authorities are expandable. */
  lemma AuthoritiesBelowDepth(g: Globals)
    requires GetMaxLevel(g).level == 5
    ensures AreaFragments(Responses["W92000004"], Api, 0, g).fragments
         == [Fragment(Anglesey, 0, true), Fragment(Gwynedd, 0, true)]
  {
    var items := [Anglesey, Gwynedd];
    assert Responses["W92000004"] == Many(items);
    ManyFragmentsOrdered(items, Api, 0, g);
  }
}

=== FILE: fragments.dfy ===
/**
 * The text fragments the area tree widget is fed with: one JSON object per
 * area, built by plain string concatenation, plus two wrappers meant for a
 * United Kingdom root node and its single child. The script defines those
 * two wrappers but never calls them.
 *
 * Field values are pasted in without escaping, so a label holding a double
 * quote yields text that no longer reads back as the same object; the
 * read-back lemma below therefore requires quote-free fields.
 */
module Fragments {
  import opened Wrappers
  import opened Strings

  // The literal pieces around the three fields of an area fragment.
  const DataOpen: string := "{\"data\": \""
  const IdOpen: string := "\" , \"attr\": {\"id\": \""
  const RelOpen: string := "\", \"rel\": \""
  const ClosedTail: string := "\"}, \"state\" : \"closed\"}"
  const LeafTail: string := "\"}}"

  /**
   * The fragment for one area: its label as `data`, its code as `id`, its
   * area-type abbreviation as `rel`, and `"state" : "closed"` when the area
   * has sub-areas to expand into.
   */
  function JsonArea(areaName: string, parentCode: string, areaType: string, isParent: bool): (r: string)
    ensures |r| >= 2 && r[0] == '{' && r[|r| - 1] == '}'
  {
    DataOpen + areaName + IdOpen + parentCode + RelOpen + areaType
      + (if isParent then ClosedTail else LeafTail)
  }

  /** The fields a fragment carries, as read back from its text. */
  datatype AreaFields = AreaFields(data: string, id: string, rel: string, closed: bool)

  /** A field value the fragment format can carry without escaping. */
  predicate Unquoted(s: string)
  {
    '"' !in s
  }

  /** The characters of `s` up to the first double quote, and the rest from that quote on. */
  function TakeField(s: string): (r: (string, string))
    ensures r.0 + r.1 == s && Unquoted(r.0)
    ensures |r.1| == 0 || r.1[0] == '"'
  {
    if |s| == 0 then ("", "")
    else if s[0] == '"' then ("", s)
    else
      var (f, rest) := TakeField(s[1..]);
      ([s[0]] + f, rest)
  }

  /** `p` is a prefix of `s`. */
  predicate StartsWith(s: string, p: string)
  {
    OccursAt(s, p, 0)
  }

  /**
   * Reads an area fragment back into its fields; `None` for text that is
   * not shaped like one.
   */
  function ParseFragment(s: string): Option<AreaFields>
  {
    if !StartsWith(s, DataOpen) then None
    else
      var (data, r1) := TakeField(s[|DataOpen|..]);
      if !StartsWith(r1, IdOpen) then None
      else
        var (id, r2) := TakeField(r1[|IdOpen|..]);
        if !StartsWith(r2, RelOpen) then None
        else
          var (rel, r3) := TakeField(r2[|RelOpen|..]);
          match ParseTail(r3)
          case Some(closed) => Some(AreaFields(data, id, rel, closed))
          case None => None
  }

  /** Which of the two endings a fragment has: `Some(true)` for the closed-state one. */
  function ParseTail(s: string): (r: Option<bool>)
    ensures r == Some(true) <==> s == ClosedTail
    ensures r == Some(false) <==> s == LeafTail
  {
    if s == ClosedTail then Some(true)
    else if s == LeafTail then Some(false)
    else None
  }

  /** Stripping a known prefix off a concatenation. */
  lemma DropPrefix(p: string, x: string)
    ensures StartsWith(p + x, p) && (p + x)[|p|..] == x
  {
    assert (p + x)[..|p|] == p;
  }

  /** One field step of the reader: prefix, quote-free value, then text opening with a quote. */
  lemma FieldStep(p: string, v: string, rest: string)
    requires Unquoted(v) && |rest| > 0 && rest[0] == '"'
    requires |p| > 0
    ensures (p + v + rest)[0] == p[0]
    ensures StartsWith(p + v + rest, p)
    ensures TakeField((p + v + rest)[|p|..]) == (v, rest)
  {
    assert p + v + rest == p + (v + rest);
    DropPrefix(p, v + rest);
    TakeFieldOfJoin(v, rest);
  }

  /** A quote-free value followed by text that opens with a quote splits back apart. */
  lemma {:induction false} TakeFieldOfJoin(x: string, y: string)
    requires Unquoted(x) && |y| > 0 && y[0] == '"'
    ensures TakeField(x + y) == (x, y)
    decreases |x|
  {
    if |x| == 0 {
      assert x + y == y;
    } else {
      assert (x + y)[1..] == x[1..] + y;
      TakeFieldOfJoin(x[1..], y);
      assert [x[0]] + x[1..] == x;
    }
  }

  /**
   * Reading a fragment back gives the label, code, type and expandability
   * it was built from, whenever none of the three values holds a quote.
   */
  lemma ParseJsonArea(areaName: string, parentCode: string, areaType: string, isParent: bool)
    requires Unquoted(areaName) && Unquoted(parentCode) && Unquoted(areaType)
    ensures ParseFragment(JsonArea(areaName, parentCode, areaType, isParent))
         == Some(AreaFields(areaName, parentCode, areaType, isParent))
  {
    var tail := if isParent then ClosedTail else LeafTail;
    TailReads(isParent);
    var r2 := RelOpen + areaType + tail;
    var r1 := IdOpen + parentCode + r2;
    FieldStep(RelOpen, areaType, tail);
    FieldStep(IdOpen, parentCode, r2);
    FieldStep(DataOpen, areaName, r1);
    ReadSteps(DataOpen + areaName + r1, areaName, parentCode, areaType, r1, r2, tail);
    JsonAreaNested(areaName, parentCode, areaType, isParent);
  }

  /** Each ending reads back as the expandability it encodes. */
  lemma TailReads(isParent: bool)
    ensures ParseTail(if isParent then ClosedTail else LeafTail) == Some(isParent)
    ensures (if isParent then ClosedTail else LeafTail)[0] == '"'
  {
    assert ClosedTail != LeafTail by { assert |ClosedTail| != |LeafTail|; }
  }

  /** A fragment, regrouped as the reader consumes it. */
  lemma JsonAreaNested(areaName: string, parentCode: string, areaType: string, isParent: bool)
    ensures JsonArea(areaName, parentCode, areaType, isParent)
         == DataOpen + areaName + (IdOpen + parentCode
              + (RelOpen + areaType + (if isParent then ClosedTail else LeafTail)))
  {
  }

  /** The reader's three field steps and its tail step, chained. */
  lemma ReadSteps(s: string, data: string, id: string, rel: string, r1: string, r2: string, r3: string)
    requires StartsWith(s, DataOpen) && TakeField(s[|DataOpen|..]) == (data, r1)
    requires StartsWith(r1, IdOpen) && TakeField(r1[|IdOpen|..]) == (id, r2)
    requires StartsWith(r2, RelOpen) && TakeField(r2[|RelOpen|..]) == (rel, r3)
    requires ParseTail(r3).Some?
    ensures ParseFragment(s) == Some(AreaFields(data, id, rel, ParseTail(r3).value))
  {
  }

  /** The separator the demonstration loop splits the joined fragments on. */
  const Separator: string := "}, {"

  /** Text lacking either brace cannot contain the separator, which has both. */
  lemma BracelessFree(s: string)
    requires '}' !in s || '{' !in s
    ensures !Contains(s, Separator)
  {
    assert |Separator| == 4 && Separator[0] == '}' && Separator[3] == '{';
    forall i | 0 <= i <= |s|
      ensures !OccursAt(s, Separator, i)
    {
      if i + 4 <= |s| {
        var w := s[i..i + 4];
        assert w[0] == s[i] && w[3] == s[i + 3];
      }
    }
  }

  /** None of the literal pieces of a fragment contains the separator. */
  lemma LiteralsFree()
    ensures !Contains(DataOpen, Separator) && !Contains(IdOpen, Separator)
    ensures !Contains(RelOpen, Separator) && !Contains(ClosedTail, Separator)
    ensures !Contains(LeafTail, Separator)
  {
    BracelessFree(DataOpen);
    BracelessFree(IdOpen);
    BracelessFree(RelOpen);
    BracelessFree(ClosedTail);
    BracelessFree(LeafTail);
  }

  /**
   * An area fragment contains the separator only if one of its three field
   * values does: every seam between a value and the fixed text is a double
   * quote, which the separator lacks.
   */
  lemma JsonAreaFree(areaName: string, parentCode: string, areaType: string, isParent: bool)
    requires !Contains(areaName, Separator) && !Contains(parentCode, Separator)
    requires !Contains(areaType, Separator)
    ensures !Contains(JsonArea(areaName, parentCode, areaType, isParent), Separator)
  {
    var tail := if isParent then ClosedTail else LeafTail;
    LiteralsFree();
    assert '"' !in Separator;
    var a1 := DataOpen + areaName;
    GlueFree(DataOpen, areaName, Separator, '"');
    var a2 := a1 + IdOpen;
    GlueFree(a1, IdOpen, Separator, '"');
    var a3 := a2 + parentCode;
    GlueFree(a2, parentCode, Separator, '"');
    var a4 := a3 + RelOpen;
    GlueFree(a3, RelOpen, Separator, '"');
    var a5 := a4 + areaType;
    GlueFree(a4, areaType, Separator, '"');
    GlueFree(a5, tail, Separator, '"');
  }

  /** The end of the attribute object in the two wrappers below, which carry no `rel`. */
  const AttrClose: string := "\"}"
  const OpenState: string := ", \"state\" : \"open\""
  const ChildrenOpen: string := "\"children\" : [[ "
  const ChildClosedEnd: string := ", \"state\" : \"closed\"} ]]}"
  const ChildLeafEnd: string := " } ]]}"

  /** An area object with label and code but no `rel`, left unclosed. */
  function BareArea(areaName: string, parentCode: string): string
  {
    DataOpen + areaName + IdOpen + parentCode + AttrClose
  }

  /**
   * The fragment for the United Kingdom root: label as `data`, code as
   * `id`, and `"state" : "open"` when it has children. It is left without
   * its closing brace. Nothing in the script calls it.
   */
  function JsonAreaUK(areaName: string, parentCode: string, isParent: bool): (r: string)
    ensures StartsWith(r, BareArea(areaName, parentCode))
    ensures !isParent ==> r == BareArea(areaName, parentCode)
  {
    if isParent then BareArea(areaName, parentCode) + OpenState
    else BareArea(areaName, parentCode)
  }

  /**
   * The `children` member holding one child area, ending in a closing brace
   * for an enclosing object. It starts with `"children"` itself, with no
   * comma before it, so pasting it straight after the root wrapper's text
   * does not give valid JSON. Nothing in the script calls it.
   */
  function JsonAreaChild(areaName: string, parentCode: string, isParent: bool): (r: string)
    ensures StartsWith(r, ChildrenOpen + BareArea(areaName, parentCode))
  {
    if isParent then ChildrenOpen + BareArea(areaName, parentCode) + ChildClosedEnd
    else ChildrenOpen + BareArea(areaName, parentCode) + ChildLeafEnd
  }

  /**
   * The two wrappers agree on an area's text: an opened root is the
   * unopened one plus its open state, and the child object is the unopened
   * root object for that area, closed by `"state" : "closed"` when it has
   * children and by a bare brace otherwise.
   */
  lemma WrappersAgree(areaName: string, parentCode: string, isParent: bool)
    ensures JsonAreaUK(areaName, parentCode, true)
         == JsonAreaUK(areaName, parentCode, false) + OpenState
    ensures JsonAreaChild(areaName, parentCode, isParent)
         == ChildrenOpen + JsonAreaUK(areaName, parentCode, false)
            + (if isParent then ChildClosedEnd else ChildLeafEnd)
  {
  }
}

=== FILE: hierarchy.dfy ===
/**
 * The page-level globals of the area tree that carry state between calls,
 * and the memoised maximum-level lookup that reads them.
 *
 * The browser script keeps these as mutable module variables; here they are
 * one immutable record that every operation takes and returns.
 */
module Hierarchy {
  import opened Wrappers

  /**
   * The globals: the memoised deepest level and its "already computed"
   * flag, the hierarchy id most recently read from the drop-down, and the
   * `levels` filter used by the next top-level request.
   */
  datatype Globals = Globals(
    highestLevelNumber: int,
    gotMaxLevelNumber: bool,
    curHierarchy: string,
    filterTopLevelAreaNum: int)

  /** The values the script starts with when it is loaded. */
  const Initial: Globals := Globals(0, false, "2011WARDH", 2)

  /** The fixed table from hierarchy id to the deepest level it reaches. */
  function MaxLevelTable(hierarchy: string): (r: Option<int>)
    ensures r.Some? ==> 3 <= r.value <= 6
    ensures r.Some? <==>
      hierarchy in {"2011PCONH", "2011WARDH", "2011STATH", "2011CMLADH", "2011HTWARDH"}
  {
    if hierarchy == "2011PCONH" then Some(3)
    else if hierarchy == "2011WARDH" then Some(5)
    else if hierarchy == "2011STATH" then Some(6)
    else if hierarchy == "2011CMLADH" then Some(4)
    else if hierarchy == "2011HTWARDH" then Some(5)
    else None
  }

  /** The table holds exactly the five known hierarchies, with these depths. */
  lemma MaxLevelTableContents(hierarchy: string)
    ensures MaxLevelTable(hierarchy).Some? <==>
      hierarchy in {"2011PCONH", "2011WARDH", "2011STATH", "2011CMLADH", "2011HTWARDH"}
    ensures MaxLevelTable("2011PCONH") == Some(3)
    ensures MaxLevelTable("2011WARDH") == Some(5)
    ensures MaxLevelTable("2011STATH") == Some(6)
    ensures MaxLevelTable("2011CMLADH") == Some(4)
    ensures MaxLevelTable("2011HTWARDH") == Some(5)
  {
  }

  /**
   * Clearing the page: the memoised level goes back to 0 and the flag is
   * lowered, so the next lookup consults the table again. The current
   * hierarchy and the `levels` filter are not touched.
   */
  function ResetPage(g: Globals): (r: Globals)
    ensures r.highestLevelNumber == 0 && !r.gotMaxLevelNumber
    ensures r.curHierarchy == g.curHierarchy
    ensures r.filterTopLevelAreaNum == g.filterTopLevelAreaNum
  {
    g.(highestLevelNumber := 0, gotMaxLevelNumber := false)
  }

  /** What a maximum-level lookup returns, with the globals after it. */
  datatype Lookup = Lookup(level: int, globals: Globals)

  /**
   * The deepest level for the current hierarchy, computed at most once:
   * while the flag is down the table is consulted (an unknown hierarchy
   * leaves the stored number as it was) and the flag is raised; once it is
   * up the stored number is returned whatever the current hierarchy is.
   */
  function GetMaxLevel(g: Globals): (r: Lookup)
    ensures r.globals.gotMaxLevelNumber
    ensures r.level == r.globals.highestLevelNumber
    ensures r.globals.curHierarchy == g.curHierarchy
    ensures r.globals.filterTopLevelAreaNum == g.filterTopLevelAreaNum
    ensures g.gotMaxLevelNumber ==> r == Lookup(g.highestLevelNumber, g)
    ensures !g.gotMaxLevelNumber && MaxLevelTable(g.curHierarchy).Some? ==>
      r.level == MaxLevelTable(g.curHierarchy).value
    ensures MaxLevelTable(g.curHierarchy).None? ==> r.level == g.highestLevelNumber
  {
    if g.gotMaxLevelNumber then Lookup(g.highestLevelNumber, g)
    else
      var level := match MaxLevelTable(g.curHierarchy)
        case Some(n) => n
        case None => g.highestLevelNumber;
      Lookup(level, g.(highestLevelNumber := level, gotMaxLevelNumber := true))
  }

  /** A second lookup returns the first one's answer and changes nothing. */
  lemma LookupIdempotent(g: Globals)
    ensures GetMaxLevel(GetMaxLevel(g).globals) == GetMaxLevel(g)
  {
  }

  /**
   * Once computed, the answer is stale: switching the current hierarchy
   * afterwards does not change what the lookup returns.
   */
  lemma LookupIgnoresLaterHierarchy(g: Globals, hierarchy: string)
    ensures GetMaxLevel(GetMaxLevel(g).globals.(curHierarchy := hierarchy)).level
         == GetMaxLevel(g).level
  {
  }

  /**
   * After a page reset the lookup is fresh again: a known hierarchy gets its
   * table depth and an unknown one gets 0.
   */
  lemma LookupAfterReset(g: Globals)
    ensures MaxLevelTable(g.curHierarchy).Some? ==>
      GetMaxLevel(ResetPage(g)).level == MaxLevelTable(g.curHierarchy).value
    ensures MaxLevelTable(g.curHierarchy).None? ==> GetMaxLevel(ResetPage(g)).level == 0
  {
  }
}

=== FILE: request.dfy ===
/**
 * The relative request paths the area tree asks the statistics service
 * for: the top-level areas of a hierarchy, or the sub-areas of one parent
 * area. The service endpoint is prepended by the transport, which is not
 * part of this model.
 *
 * The hierarchy and its dataset come from one drop-down value of the form
 * `hierarchy:dataset`, split on the colon. When the value has no colon the
 * dataset half is missing and the script's concatenation inserts the text
 * `undefined`; that is reproduced here.
 */
module Request {
  import opened Wrappers
  import opened Strings
  import opened Hierarchy

  const Endpoint: string := "http://data.ons.gov.uk/ons/api/data/hierarchy/"
  const Context: string := "?context=Census"
  const ApiKey: string := "&apikey=0YOH4UDkTJ"
  const GeogParam: string := "&geog="
  const TopLevelFilter: string := "&parent=&levels="
  const SubAreaFilter: string := "/parent/"
  const FormatJson: string := ".json"

  /** The decimal digits of a natural number, most significant first. */
  function Digits(n: nat): (r: string)
    ensures |r| >= 1
    ensures n < 10 ==> r == [(48 + n) as char]
    decreases n
  {
    if n < 10 then [(48 + n) as char] else Digits(n / 10) + [(48 + n % 10) as char]
  }

  /** A whole number as string concatenation renders it. */
  function NumberText(n: int): string
  {
    if n < 0 then "-" + Digits(-n) else Digits(n)
  }

  /** The two halves of the drop-down value: hierarchy id, then dataset id. */
  datatype Selection = Selection(hierarchy: string, dataset: string)

  /** Splits the drop-down value on `:`; a missing dataset half reads as `undefined`. */
  function ParseSelection(value: string): (r: Selection)
    ensures !Contains(r.hierarchy, ":")
    ensures |r.hierarchy| <= |value| && value[..|r.hierarchy|] == r.hierarchy
    ensures !Contains(value, ":") ==> r == Selection(value, "undefined")
  {
    var parts := Split(value, ":");
    JoinStartsWithHead(parts, ":");
    Selection(parts[0], if |parts| > 1 then parts[1] else "undefined")
  }

  /** A request path, whether it initialises the tree, and the globals after it. */
  datatype Request = Request(path: string, initialiseTree: bool, globals: Globals)

  /**
   * The `levels` filter for a top-level request: 2 for the ward hierarchy,
   * 0 for the constituency hierarchy, and otherwise whatever it was before.
   */
  function TopLevelAreaNum(hierarchy: string, previous: int): (r: int)
    ensures r == previous || r == 0 || r == 2
    ensures hierarchy !in {"2011PCONH", "2011WARDH"} ==> r == previous
  {
    if hierarchy == "2011PCONH" then 0
    else if hierarchy == "2011WARDH" then 2
    else previous
  }

  /**
   * Builds the request for the top-level areas (no parent code) or for the
   * sub-areas of a parent. Either way the hierarchy read from the drop-down
   * becomes the current hierarchy; a top-level request also stores its
   * `levels` filter for next time.
   */
  function GetAreaData(parentCode: Option<string>, hierarchyDataset: string, g: Globals): (r: Request)
    ensures r.globals.curHierarchy == ParseSelection(hierarchyDataset).hierarchy
    ensures r.initialiseTree <==> parentCode.None?
    ensures r.globals.highestLevelNumber == g.highestLevelNumber
    ensures r.globals.gotMaxLevelNumber == g.gotMaxLevelNumber
    ensures parentCode.Some? ==> r.globals.filterTopLevelAreaNum == g.filterTopLevelAreaNum
  {
    var sel := ParseSelection(hierarchyDataset);
    var g1 := g.(curHierarchy := sel.hierarchy);
    match parentCode
    case None =>
      var n := TopLevelAreaNum(sel.hierarchy, g.filterTopLevelAreaNum);
      Request(sel.dataset + FormatJson + Context + ApiKey + GeogParam + sel.hierarchy
                + TopLevelFilter + NumberText(n),
              true, g1.(filterTopLevelAreaNum := n))
    case Some(code) =>
      Request(sel.dataset + SubAreaFilter + code + FormatJson + Context + ApiKey + GeogParam
                + sel.hierarchy,
              false, g1)
  }

  /** A drop-down value built from a colon-free hierarchy and dataset splits back into them. */
  lemma {:induction false} ParseSelectionOfPair(hierarchy: string, dataset: string)
    requires ':' !in hierarchy && ':' !in dataset
    ensures ParseSelection(hierarchy + ":" + dataset) == Selection(hierarchy, dataset)
  {
    assert SelfSeparating(":");
    ColonFree(hierarchy);
    ColonFree(dataset);
    SplitJoin([hierarchy, dataset], ":");
    assert Join([hierarchy, dataset], ":") == hierarchy + ":" + Join([dataset], ":");
  }

  /** Text without a colon does not contain the one-character separator `:`. */
  lemma ColonFree(s: string)
    requires ':' !in s
    ensures !Contains(s, ":")
  {
    forall i | 0 <= i <= |s|
      ensures !OccursAt(s, ":", i)
    {
      if i + 1 <= |s| {
        assert s[i..i + 1][0] == s[i];
      }
    }
  }

  /**
   * The top-level request for a well-formed drop-down value: the dataset,
   * `.json`, the context and key, the hierarchy, and the `levels` filter,
   * which is 2 for the ward hierarchy, 0 for the constituency hierarchy,
   * and otherwise the one stored by the previous top-level request.
   */
  lemma TopLevelPath(hierarchy: string, dataset: string, g: Globals)
    requires ':' !in hierarchy && ':' !in dataset
    ensures GetAreaData(None, hierarchy + ":" + dataset, g).path
         == dataset + FormatJson + Context + ApiKey + GeogParam + hierarchy + TopLevelFilter
            + NumberText(if hierarchy == "2011WARDH" then 2
                         else if hierarchy == "2011PCONH" then 0
                         else g.filterTopLevelAreaNum)
    ensures GetAreaData(None, hierarchy + ":" + dataset, g).globals.filterTopLevelAreaNum
         == (if hierarchy == "2011WARDH" then 2
             else if hierarchy == "2011PCONH" then 0
             else g.filterTopLevelAreaNum)
  {
    ParseSelectionOfPair(hierarchy, dataset);
  }

  /**
   * The sub-area request for a well-formed drop-down value: the dataset,
   * `/parent/` and the parent code, `.json`, the context and key, and the
   * hierarchy; no `levels` filter.
   */
  lemma SubAreaPath(hierarchy: string, dataset: string, code: string, g: Globals)
    requires ':' !in hierarchy && ':' !in dataset
    ensures GetAreaData(Some(code), hierarchy + ":" + dataset, g).path
         == dataset + SubAreaFilter + code + FormatJson + Context + ApiKey + GeogParam + hierarchy
  {
    ParseSelectionOfPair(hierarchy, dataset);
  }

  /** The `levels` filter only ever holds 0 or 2 when it starts at 2. */
  lemma LevelsFilterStaysKnown(parentCode: Option<string>, hierarchyDataset: string, g: Globals)
    requires g.filterTopLevelAreaNum in {0, 2}
    ensures GetAreaData(parentCode, hierarchyDataset, g).globals.filterTopLevelAreaNum in {0, 2}
    ensures Initial.filterTopLevelAreaNum == 2
  {
  }

  /** Equal texts with the same frame around them have equal middles. */
  lemma CancelFrame(head: string, x: string, y: string, tail: string)
    requires head + x + tail == head + y + tail
    ensures x == y
  {
    var s := head + x + tail;
    assert |x| == |y|;
    assert x == s[|head|..|head| + |x|];
  }

  /**
   * Different parent codes give different sub-area requests for the same
   * drop-down value, so each parent's children are asked for separately.
   */
  lemma SubAreaPathInjective(hierarchyDataset: string, code1: string, code2: string, g: Globals)
    requires GetAreaData(Some(code1), hierarchyDataset, g).path
          == GetAreaData(Some(code2), hierarchyDataset, g).path
    ensures code1 == code2
  {
    var sel := ParseSelection(hierarchyDataset);
    var head := sel.dataset + SubAreaFilter;
    var tail := FormatJson + Context + ApiKey + GeogParam + sel.hierarchy;
    SubAreaPathFramed(hierarchyDataset, code1, g);
    SubAreaPathFramed(hierarchyDataset, code2, g);
    CancelFrame(head, code1, code2, tail);
  }

  /** A sub-area request is the parent code inside a frame fixed by the drop-down value. */
  lemma SubAreaPathFramed(hierarchyDataset: string, code: string, g: Globals)
    ensures GetAreaData(Some(code), hierarchyDataset, g).path
         == ParseSelection(hierarchyDataset).dataset + SubAreaFilter + code
            + (FormatJson + Context + ApiKey + GeogParam + ParseSelection(hierarchyDataset).hierarchy)
  {
  }

  /**
   * The sub-area address the widget asks for when a node opens, built from
   * the drop-down value captured at initialisation and the node's id.
   */
  function NodeUrl(hierarchyDataset: string, nodeId: string): (r: string)
    ensures forall g :: r == Endpoint + GetAreaData(Some(nodeId), hierarchyDataset, g).path
  {
    var sel := ParseSelection(hierarchyDataset);
    Endpoint + sel.dataset + SubAreaFilter + nodeId + FormatJson + Context + ApiKey + GeogParam + sel.hierarchy
  }

  /**
   * The initialise button: the page is reset, then the top-level areas of
   * the selected hierarchy are requested.
   */
  function GoClick(hierarchyDataset: string, g: Globals): (r: Request)
    ensures r.initialiseTree
    ensures r.globals.highestLevelNumber == 0 && !r.globals.gotMaxLevelNumber
    ensures r.globals.curHierarchy == ParseSelection(hierarchyDataset).hierarchy
  {
    GetAreaData(None, hierarchyDataset, ResetPage(g))
  }

  /**
   * Because the button resets the page first, the next deepest-level lookup
   * answers for the newly selected hierarchy: its table depth if it is
   * known, 0 otherwise.
   */
  lemma GoClickLooksUpAfresh(hierarchyDataset: string, g: Globals)
    ensures var h := ParseSelection(hierarchyDataset).hierarchy;
      GetMaxLevel(GoClick(hierarchyDataset, g).globals).level
        == (match MaxLevelTable(h) case Some(n) => n case None => 0)
  {
  }

  /**
   * Without that reset the lookup is stale: a request for another
   * hierarchy made after the depth was looked up leaves the looked-up depth
   * in force.
   */
  lemma RequestWithoutResetIsStale(parentCode: Option<string>, hierarchyDataset: string, g: Globals)
    ensures GetMaxLevel(GetAreaData(parentCode, hierarchyDataset, GetMaxLevel(g).globals).globals).level
         == GetMaxLevel(g).level
  {
  }
}

=== FILE: strings.dfy ===
/**
 * Sequence-of-character helpers that stand for the JavaScript string
 * operations the area tree relies on: searching for a separator,
 * `String.prototype.split` with a non-empty literal separator, and joining
 * pieces with a separator (what a loop that appends `", "` between items does).
 */
module Strings {
  import opened Wrappers

  /** `sep` occurs in `s` starting at index `i`. */
  predicate OccursAt(s: string, sep: string, i: int)
  {
    0 <= i && i + |sep| <= |s| && s[i..i + |sep|] == sep
  }

  /** `sep` occurs somewhere in `s`. */
  predicate Contains(s: string, sep: string)
  {
    exists i | 0 <= i <= |s| :: OccursAt(s, sep, i)
  }

  /** The first index at or after `k` where `sep` occurs in `s`, if any. */
  function FindFrom(s: string, sep: string, k: nat): (r: Option<nat>)
    requires |sep| > 0 && k <= |s|
    ensures r.Some? ==> k <= r.value && OccursAt(s, sep, r.value)
    ensures r.Some? ==> forall j :: k <= j < r.value ==> !OccursAt(s, sep, j)
    ensures r.None? ==> forall j :: k <= j ==> !OccursAt(s, sep, j)
    decreases |s| - k
  {
    if k + |sep| > |s| then None
    else if s[k..k + |sep|] == sep then Some(k)
    else FindFrom(s, sep, k + 1)
  }

  /**
   * `s.split(sep)` for a non-empty separator: the pieces between
   * successive leftmost non-overlapping occurrences of `sep`.
   */
  function Split(s: string, sep: string): (r: seq<string>)
    requires |sep| > 0
    ensures |r| >= 1
    ensures !Contains(s, sep) ==> r == [s]
    ensures Join(r, sep) == s
    ensures NoneContains(r, sep)
    decreases |s|
  {
    match FindFrom(s, sep, 0)
    case None => [s]
    case Some(i) =>
      var rest := Split(s[i + |sep|..], sep);
      SplitStep(s, sep, i, rest);
      [s[..i]] + rest
  }

  /**
   * One step of the split: the text before the leftmost occurrence of
   * `sep`, in front of the pieces of the text after it.
   */
  lemma SplitStep(s: string, sep: string, i: nat, rest: seq<string>)
    requires |sep| > 0 && FindFrom(s, sep, 0) == Some(i)
    requires |rest| >= 1 && Join(rest, sep) == s[i + |sep|..] && NoneContains(rest, sep)
    ensures Contains(s, sep)
    ensures Join([s[..i]] + rest, sep) == s
    ensures NoneContains([s[..i]] + rest, sep)
  {
    assert OccursAt(s, sep, i);
    PrefixBeforeFirst(s, sep, i);
    PrependPiece(s[..i], rest, sep);
    CutAround(s, sep, i);
  }

  /** A text is the part before an occurrence of `sep`, `sep`, and the part after. */
  lemma CutAround(s: string, sep: string, i: nat)
    requires OccursAt(s, sep, i)
    ensures s == s[..i] + sep + s[i + |sep|..]
  {
    assert s[..i] + s[i..i + |sep|] + s[i + |sep|..] == s;
  }

  /** The text before the leftmost occurrence of `sep` is free of it. */
  lemma PrefixBeforeFirst(s: string, sep: string, i: nat)
    requires |sep| > 0 && OccursAt(s, sep, i)
    requires forall j :: 0 <= j < i ==> !OccursAt(s, sep, j)
    ensures !Contains(s[..i], sep)
  {
    forall j | 0 <= j <= i
      ensures !OccursAt(s[..i], sep, j)
    {
      if j + |sep| <= i {
        assert s[..i][j..j + |sep|] == s[j..j + |sep|];
        assert !OccursAt(s, sep, j);
      }
    }
  }

  /** A join begins with its first piece. */
  lemma JoinStartsWithHead(ps: seq<string>, sep: string)
    requires |ps| >= 1
    ensures |ps[0]| <= |Join(ps, sep)| && Join(ps, sep)[..|ps[0]|] == ps[0]
  {
    if |ps| > 1 {
      assert Join(ps, sep) == ps[0] + (sep + Join(ps[1..], sep));
    }
  }

  /** A separator-free head in front of separator-free pieces keeps them all free of it. */
  lemma PrependPiece(head: string, ps: seq<string>, sep: string)
    requires |ps| >= 1 && !Contains(head, sep) && NoneContains(ps, sep)
    ensures NoneContains([head] + ps, sep)
    ensures Join([head] + ps, sep) == head + sep + Join(ps, sep)
  {
    JoinCons(head, ps, sep);
    assert forall k :: 1 <= k <= |ps| ==> ([head] + ps)[k] == ps[k - 1];
  }

  /** Joining a head in front of at least one more piece. */
  lemma JoinCons(head: string, ps: seq<string>, sep: string)
    requires |ps| >= 1
    ensures Join([head] + ps, sep) == head + sep + Join(ps, sep)
  {
    assert ([head] + ps)[1..] == ps;
  }

  /** The pieces of `ps` in order with `sep` between neighbours. */
  function Join(ps: seq<string>, sep: string): string
  {
    if |ps| == 0 then ""
    else if |ps| == 1 then ps[0]
    else ps[0] + sep + Join(ps[1..], sep)
  }

  /** A separator whose first character does not reappear later in it cannot overlap itself. */
  predicate SelfSeparating(sep: string)
  {
    |sep| > 0 && sep[0] !in sep[1..]
  }

  /** No piece of `ps` contains `sep`. */
  predicate NoneContains(ps: seq<string>, sep: string)
  {
    forall i :: 0 <= i < |ps| ==> !Contains(ps[i], sep)
  }

  /** A window that lies inside `a` is a window of `a + b` too. */
  lemma WindowOfPrefix(a: string, b: string, j: int, n: nat)
    requires 0 <= j && j + n <= |a|
    ensures (a + b)[j..j + n] == a[j..j + n]
  {
  }

  /**
   * When `p` is free of a self-separating `sep`, the leftmost occurrence of
   * `sep` in `p + sep + rest` is the one right after `p`.
   */
  lemma {:induction false} FirstOccurrenceAfter(p: string, sep: string, rest: string)
    requires SelfSeparating(sep) && !Contains(p, sep)
    ensures FindFrom(p + sep + rest, sep, 0) == Some(|p|)
  {
    var s := p + sep + rest;
    assert s == p + (sep + rest);
    assert s[|p|..|p| + |sep|] == sep;
    assert OccursAt(s, sep, |p|);
    forall j | 0 <= j < |p|
      ensures !OccursAt(s, sep, j)
    {
      if j + |sep| <= |p| {
        WindowOfPrefix(p, sep + rest, j, |sep|);
        assert !OccursAt(p, sep, j);
      } else {
        var d := |p| - j;
        assert s[j..j + |sep|][d] == s[|p|] == sep[0];
        assert sep[d] == sep[1..][d - 1];
        assert sep[d] != sep[0];
      }
    }
  }

  /** Splitting `p + sep + rest` cuts off exactly `p` first. */
  lemma SplitAfterFirst(p: string, sep: string, rest: string)
    requires SelfSeparating(sep) && !Contains(p, sep)
    ensures Split(p + sep + rest, sep) == [p] + Split(rest, sep)
  {
    var s := p + sep + rest;
    FirstOccurrenceAfter(p, sep, rest);
    assert s[..|p|] == p;
    assert s[|p| + |sep|..] == rest;
  }

  /**
   * Splitting a join recovers the pieces, provided the separator cannot
   * overlap itself and no piece contains it.
   */
  lemma {:induction false} SplitJoin(ps: seq<string>, sep: string)
    requires |ps| >= 1 && SelfSeparating(sep) && NoneContains(ps, sep)
    ensures Split(Join(ps, sep), sep) == ps
    decreases |ps|
  {
    if |ps| == 1 {
      assert !Contains(ps[0], sep);
    } else {
      assert !Contains(ps[0], sep);
      SplitAfterFirst(ps[0], sep, Join(ps[1..], sep));
      assert NoneContains(ps[1..], sep) by {
        forall i | 0 <= i < |ps[1..]| ensures !Contains(ps[1..][i], sep) {
          assert ps[1..][i] == ps[i + 1];
        }
      }
      SplitJoin(ps[1..], sep);
      assert [ps[0]] + ps[1..] == ps;
    }
  }

  /** A piece cut out of a string free of `sep` is free of it too. */
  lemma SliceFree(s: string, sep: string, lo: int, hi: int)
    requires 0 <= lo <= hi <= |s| && !Contains(s, sep)
    ensures !Contains(s[lo..hi], sep)
  {
    forall j | 0 <= j <= hi - lo
      ensures !OccursAt(s[lo..hi], sep, j)
    {
      if j + |sep| <= hi - lo {
        var w := s[lo..hi][j..j + |sep|];
        assert forall k | 0 <= k < |sep| :: w[k] == s[lo + j + k];
        assert w == s[lo + j..lo + j + |sep|];
        assert !OccursAt(s, sep, lo + j);
      }
    }
  }

  /**
   * Gluing two strings free of `sep` gives a string free of `sep` when the
   * characters meeting at the seam include a character `q` that `sep` lacks.
   */
  lemma GlueFree(a: string, b: string, sep: string, q: char)
    requires !Contains(a, sep) && !Contains(b, sep) && q !in sep
    requires (|a| > 0 && a[|a| - 1] == q) || (|b| > 0 && b[0] == q)
    ensures !Contains(a + b, sep)
  {
    var s := a + b;
    forall j | 0 <= j <= |s|
      ensures !OccursAt(s, sep, j)
    {
      if j + |sep| <= |a| {
        assert s[j..j + |sep|] == a[j..j + |sep|];
        assert !OccursAt(a, sep, j);
      } else if j >= |a| {
        if j + |sep| <= |s| {
          assert s[j..j + |sep|] == b[j - |a|..j - |a| + |sep|];
          assert !OccursAt(b, sep, j - |a|);
        }
      } else if j + |sep| <= |s| {
        var w := s[j..j + |sep|];
        if |a| > 0 && a[|a| - 1] == q {
          assert w[|a| - 1 - j] == q;
        } else {
          assert w[|a| - j] == q;
        }
        assert q in w;
      }
    }
  }

  /** Appending one piece to a join adds a separator only when something came before. */
  lemma {:induction false} JoinSnoc(ps: seq<string>, p: string, sep: string)
    ensures Join(ps + [p], sep) == if |ps| == 0 then p else Join(ps, sep) + sep + p
    decreases |ps|
  {
    if |ps| == 0 {
      assert ps + [p] == [p];
    } else if |ps| == 1 {
      assert ps + [p] == [ps[0], p];
      assert [ps[0], p][1..] == [p];
    } else {
      assert (ps + [p])[1..] == ps[1..] + [p];
      JoinSnoc(ps[1..], p, sep);
    }
  }
}

=== FILE: whitespace.dfy ===
/**
 * The whitespace stripper: `str.replace(/^(\s*)|(\s*)$/g, '')` followed by
 * `.replace(/\s+/g, '')`, i.e. trim both ends, then delete every remaining
 * run of whitespace. `\s` is the JavaScript whitespace class.
 */
module Whitespace {

  /** The characters JavaScript's `\s` matches. */
  predicate IsSpace(c: char)
  {
    c == '\t' || c == '\n' || c == '\U{000B}' || c == '\U{000C}' || c == '\r' || c == ' '
    || c == '\U{00A0}' || c == '\U{1680}' || ('\U{2000}' <= c <= '\U{200A}')
    || c == '\U{2028}' || c == '\U{2029}' || c == '\U{202F}' || c == '\U{205F}'
    || c == '\U{3000}' || c == '\U{FEFF}'
  }

  /** `s` without its leading whitespace. */
  function DropLeading(s: string): (r: string)
    ensures |r| == 0 || !IsSpace(r[0])
    decreases |s|
  {
    if |s| > 0 && IsSpace(s[0]) then DropLeading(s[1..]) else s
  }

  /** `s` without its trailing whitespace. */
  function DropTrailing(s: string): (r: string)
    ensures |r| == 0 || !IsSpace(r[|r| - 1])
    decreases |s|
  {
    if |s| > 0 && IsSpace(s[|s| - 1]) then DropTrailing(s[..|s| - 1]) else s
  }

  /** The first replacement: whitespace at either end removed. */
  function Trim(s: string): string
  {
    DropTrailing(DropLeading(s))
  }

  /** The second replacement: every whitespace character removed, the rest kept in order. */
  function RemoveAll(s: string): (r: string)
    ensures forall i :: 0 <= i < |r| ==> !IsSpace(r[i])
    ensures |r| <= |s|
    decreases |s|
  {
    if |s| == 0 then ""
    else (if IsSpace(s[0]) then "" else [s[0]]) + RemoveAll(s[1..])
  }

  /** Every character that is not whitespace survives as often as it occurs. */
  lemma {:induction false} RemoveAllCounts(s: string, c: char)
    requires !IsSpace(c)
    ensures multiset(RemoveAll(s))[c] == multiset(s)[c]
    decreases |s|
  {
    if |s| > 0 {
      RemoveAllCounts(s[1..], c);
      assert s == [s[0]] + s[1..];
    }
  }

  /**
   * The script's function: trim, then remove what whitespace is left. The
   * trim changes nothing, so the result is the input with every whitespace
   * character deleted.
   */
  function RemoveWhiteSpace(str: string): (r: string)
    ensures r == RemoveAll(str)
    ensures forall i :: 0 <= i < |r| ==> !IsSpace(r[i])
  {
    RemoveAllDropTrailing(DropLeading(str));
    RemoveAllDropLeading(str);
    RemoveAll(Trim(str))
  }

  /** A single character is kept exactly when it is not whitespace. */
  lemma RemoveAllChar(c: char)
    ensures RemoveAll([c]) == if IsSpace(c) then "" else [c]
  {
    assert [c][1..] == "";
  }

  /** Removing whitespace distributes over concatenation. */
  lemma {:induction false} RemoveAllConcat(a: string, b: string)
    ensures RemoveAll(a + b) == RemoveAll(a) + RemoveAll(b)
    decreases |a|
  {
    if |a| > 0 {
      assert (a + b)[1..] == a[1..] + b;
      RemoveAllConcat(a[1..], b);
    } else {
      assert a + b == b;
    }
  }

  /** Text with no whitespace is left as it is, and only such text is. */
  lemma {:induction false} RemoveAllFixed(s: string)
    ensures RemoveAll(s) == s <==> forall i :: 0 <= i < |s| ==> !IsSpace(s[i])
    decreases |s|
  {
    if |s| > 0 {
      RemoveAllFixed(s[1..]);
      if IsSpace(s[0]) {
        assert |RemoveAll(s)| <= |s[1..]| < |s|;
      } else {
        assert forall i :: 1 <= i < |s| ==> s[i] == s[1..][i - 1];
        assert RemoveAll(s) == [s[0]] + RemoveAll(s[1..]);
        assert s == [s[0]] + s[1..];
      }
    }
  }

  /** Leading whitespace is whitespace, so dropping it first changes nothing. */
  lemma {:induction false} RemoveAllDropLeading(s: string)
    ensures RemoveAll(DropLeading(s)) == RemoveAll(s)
    decreases |s|
  {
    if |s| > 0 && IsSpace(s[0]) {
      RemoveAllDropLeading(s[1..]);
    }
  }

  /** Trailing whitespace is whitespace, so dropping it first changes nothing. */
  lemma {:induction false} RemoveAllDropTrailing(s: string)
    ensures RemoveAll(DropTrailing(s)) == RemoveAll(s)
    decreases |s|
  {
    if |s| > 0 && IsSpace(s[|s| - 1]) {
      var init := s[..|s| - 1];
      RemoveAllDropTrailing(init);
      assert s == init + [s[|s| - 1]];
      RemoveAllConcat(init, [s[|s| - 1]]);
      assert RemoveAll([s[|s| - 1]]) == "";
    }
  }

  /**
   * The trim is redundant: the result is the input with every whitespace
   * character deleted and nothing else changed, so an identifier without
   * whitespace comes back unchanged and the function is idempotent.
   */
  lemma RemoveWhiteSpaceDeletesSpaces(str: string)
    ensures RemoveWhiteSpace(str) == RemoveAll(str)
    ensures RemoveWhiteSpace(RemoveWhiteSpace(str)) == RemoveWhiteSpace(str)
  {
    RemoveAllFixed(RemoveAll(str));
  }
}

=== FILE: wrappers.dfy ===
/** The optional-value datatype shared by the rest of the model. */
module Wrappers {

  /** Either no value, or a value. */
  datatype Option<+T> = None | Some(value: T)
}
